=== FILE: README.md ===
# Ham-radio helper scripts, modelled in Dafny

This project models five small, pure helpers from the Digital Hub for ham
radio scripts:

- **APRS-IS passcode, two variants.**
  - `Files/pyscripts/aprspass.py` strips the callsign and upper-cases it. It removes one trailing `/P`, `/M` or `/MM`. It then keeps only the text before the first `-`, which drops the SSID.
  - `DigiHub/pyscripts/aprspass.py` only upper-cases the callsign and keeps the text before the first `-`.
  - Both variants start from the seed `0x73E2`. They XOR in `ord(c) << 8` for a character at an even index and `ord(c)` for one at an odd index, then mask the result to 15 bits.
- **US callsign validator** (`Files/pyscripts/validcall.py`). It strips the text, upper-cases it and removes one trailing `/P`, `/M`, `/MM` or `/AM`. It then matches a prefix (`K`, `N` or `W`, optionally followed by a letter, or `A` followed by `A`..`L`), one digit and one to three letters.
- **Maidenhead locator** (`Files/pyscripts/hamgrid.py`). It computes field, square and subsquare characters from latitude and longitude, then lower-cases the last two.
- **Coordinate validator** (`Files/pyscripts/validcoords.py`). It runs four checks in order, and each failing check raises its own error.

Modules:

- `Ascii`: Python's `strip()` with the `str.isspace()` set, plus ASCII `upper()` and `lower()`.
- `PyInt`: Python's unbounded `^`, `&` and `<<` on naturals, defined bit by bit.
- `PasscodeHash`: the shared XOR fold.
- `AprsPass` and `DigiHubAprsPass`: the two passcode scripts.
- `ValidCall`, `HamGrid` and `ValidCoords`: the validator, the encoder and the coordinate checks.

Python integers have no width, so the model's integers have none either. Raised exceptions become error values. The `main` functions of Files/pyscripts/aprspass.py and Files/pyscripts/validcall.py become `AprsPass.RunScript` and `ValidCall.RunScript`, methods that take `argv` and return the exit code, or what would be printed. The hash has two definitions:

- `PasscodeHash.HashOf` is the independent reference. It is the XOR of each parity class.
- The scripts' loops are `AprsPass.FoldHash` and `DigiHubAprsPass.ComputePasscode`. They are proved equal to that reference.

The validator's regular expression has two definitions:

- `ValidCall.MatchesCall` follows the regular expression.
- `ValidCall.CallShape` reads the text character by character.

A lemma proves that the two agree. `ValidCall.MatchToEnd` computes the match the way the regular-expression engine tries its alternatives, with `$` at the end of the text. `ValidCall.MatchPattern` adds the second place Python's `$` matches, just before a final newline.

Two places where the code and its stated intent differ are listed under "Findings". Each has a definition that models the code as written and a corrected one:

- `ValidCall.RunScript` models `main` as written, so its exit codes follow `$` as Python reads it. The lemmas about the callsign's shape are stated over the corrected reading, and `ValidCall.AgreesWithoutNewline` shows the two readings differ only on input with a newline.
- `ValidCoords.CheckOrder`, `ValidCoords.OrderExamples`, `ValidCoords.BoundsInclusive` and `ValidCoords.AcceptedIsGridDomain` are stated over the corrected validator. `ValidCoords.CheckOrderAsWritten` states the script's own order, NaN included. `ValidCoords.AgreesWithoutNaN` shows the two readings agree on every input without a NaN, which covers the inputs of `OrderExamples` and `BoundsInclusive`.

## Model

| member | source | states |
|---|---|---|
| Ascii.Strip | Files/pyscripts/aprspass.py:21 | `strip()` returns a slice of its input. Everything before the slice and everything after it is whitespace, and neither end of the slice is whitespace. |
| Ascii.StripIgnoresPadding | Files/pyscripts/validcall.py:22 | Whitespace added on either side of a text does not change its `strip()`. |
| Ascii.UpperCommutesWithStrip | Files/pyscripts/aprspass.py:21 | Upper-casing before or after `strip()` gives the same text, because no ASCII letter is whitespace. |
| Ascii.UpperOfLower | DigiHub/pyscripts/aprspass.py:5 | Upper-casing a lower-cased text gives the upper case of the original text. |
| PyInt.LowBitIsParity | Files/pyscripts/aprspass.py:34 | `i & 1` equals `i % 2`, so the two scripts' index tests agree. |
| PyInt.BitAndLowMask | Files/pyscripts/aprspass.py:39 | `a & (2^k - 1)` is `a mod 2^k` for every `a` and `k`. |
| PyInt.Mask15IsMod | Files/pyscripts/aprspass.py:39 | `h & 0x7FFF` is `h mod 32768`. |
| PasscodeHash.BaseCall | Files/pyscripts/aprspass.py:30 | `split("-", 1)[0]` returns the longest prefix without `-`. When that prefix is shorter than the text, the next character is the `-`. |
| PasscodeHash.BaseCallOfSsid | Files/pyscripts/aprspass.py:30 | A text without `-`, followed by `-` and any SSID, has the text itself as its base. |
| PasscodeHash.BaseCallIgnoresTail | DigiHub/pyscripts/aprspass.py:5 | Once a text contains `-`, appending anything leaves its base unchanged. |
| PasscodeHash.PasscodeOf | Files/pyscripts/aprspass.py:39 | The passcode is at most 32767 and is the hash modulo 2^15. |
| PasscodeHash.EmptyBaseIsSeed | Files/pyscripts/aprspass.py:32-39 | The empty base hashes to the seed `0x73E2`, so its passcode is 29666. |
| PasscodeHash.HashOfSnoc | Files/pyscripts/aprspass.py:33-37 | Extending the base by one character XORs that character's contribution into the parity-class hash. The contribution is shifted by 8 at an even index and unshifted at an odd one. |
| PasscodeHash.ParityXorUpdate | Files/pyscripts/aprspass.py:33-37 | Replacing one character changes the fold of its own parity class by the XOR of the old and new code points. The other class is left alone. |
| PasscodeHash.SameParitySwap | Files/pyscripts/aprspass.py:33-37 | Exchanging two characters whose indices have the same parity leaves the hash unchanged. |
| AprsPass.StripPortable | Files/pyscripts/aprspass.py:18-22 | `PORTABLE_RE.sub` keeps a prefix of its input. The text is unchanged exactly when it has no portable suffix in any case. Otherwise the removed part, upper-cased, is one of `/P`, `/M` and `/MM`. |
| AprsPass.FoldedSuffixOfUpper | Files/pyscripts/aprspass.py:18 | The case-insensitive suffix test gives the same answer before and after upper-casing. |
| AprsPass.NoSlashKept | Files/pyscripts/aprspass.py:18-22 | Text without `/` passes the suffix removal unchanged. |
| AprsPass.StripPortableKeepsDash | Files/pyscripts/aprspass.py:22-30 | The suffix removal never reaches back to a `-`. Whatever precedes the `-` survives it. |
| AprsPass.Passcode | Files/pyscripts/aprspass.py:39 | The passcode of any callsign is in 0..32767. |
| AprsPass.FoldHash | Files/pyscripts/aprspass.py:32-37 | The loop that tests `i & 1` computes the parity-class hash of the base. |
| AprsPass.AprsPasscode | Files/pyscripts/aprspass.py:25-39 | `aprs_passcode` as a loop computes the passcode that the normalised, SSID-free base defines. |
| AprsPass.RunScript | Files/pyscripts/aprspass.py:41-50 | Exit code 2 exactly when the argument count is wrong or the argument is blank. Otherwise exit code 0, and the passcode of the argument is printed, at most 32767. |
| AprsPass.WhitespaceAndCaseIgnored | Files/pyscripts/aprspass.py:20-21 | Surrounding whitespace and letter case change neither the normalised callsign nor the passcode. |
| AprsPass.PaddedLowerCaseExample | Files/pyscripts/aprspass.py:21 | `" k1abc "` and `"K1ABC"` get the same passcode. |
| AprsPass.SsidIgnored | Files/pyscripts/aprspass.py:30 | A normalised callsign without `-` keeps its base and its passcode when `-` and any SSID are appended. |
| AprsPass.PortableSuffixRemovedOnce | Files/pyscripts/aprspass.py:18-22 | On text that does not start with whitespace, exactly one trailing `/P`, `/M` or `/MM`, in any case, is removed. What remains is the upper-cased callsign, and that is what gets hashed. |
| AprsPass.PortableSuffixIgnored | Files/pyscripts/aprspass.py:18-22 | A normalised callsign with a portable suffix appended gets the same passcode as the callsign. |
| AprsPass.DoubleSuffixExample | Files/pyscripts/aprspass.py:18-30 | `K1ABC/P/P` normalises to `K1ABC/P`, and that whole text is the hashed base. |
| AprsPass.EmptyBasePasscode | Files/pyscripts/aprspass.py:30-39 | A callsign whose base is empty gets 29666. |
| AprsPass.LeadingDashPasscode | Files/pyscripts/aprspass.py:20-39 | A callsign starting with `-`, such as `-5`, has an empty base and gets 29666. |
| DigiHubAprsPass.Passcode | DigiHub/pyscripts/aprspass.py:13 | The passcode of any callsign is in 0..32767. |
| DigiHubAprsPass.ComputePasscode | DigiHub/pyscripts/aprspass.py:4-13 | The loop that tests `i % 2 == 0` computes the passcode of the upper-cased base. |
| DigiHubAprsPass.HashedText | DigiHub/pyscripts/aprspass.py:5 | The hashed text is the upper case of the callsign's characters before its first `-`. Nothing is trimmed and no suffix is removed. |
| DigiHubAprsPass.IgnoresFromFirstDash | DigiHub/pyscripts/aprspass.py:5 | Text appended after a `-` does not change the passcode. |
| DigiHubAprsPass.CaseInsensitive | DigiHub/pyscripts/aprspass.py:5 | A callsign, its lower case and its upper case get the same passcode. |
| DigiHubAprsPass.EmptyCallsign | DigiHub/pyscripts/aprspass.py:6-13 | The empty callsign gets 29666. |
| DigiHubAprsPass.AgreesWithFilesVariant | DigiHub/pyscripts/aprspass.py:4-13 | Without surrounding whitespace and without a portable suffix, both scripts give the same passcode. |
| DigiHubAprsPass.KeepsPortableSuffix | DigiHub/pyscripts/aprspass.py:5 | A portable suffix is hashed along with the callsign in front of it. |
| DigiHubAprsPass.NoDashIsOwnBase | DigiHub/pyscripts/aprspass.py:5 | A text without `-` is hashed whole. |
| ValidCall.StripSuffix | Files/pyscripts/validcall.py:25 | The suffix removal keeps a prefix of its input. The text is unchanged exactly when it ends in none of `/P`, `/M`, `/MM` and `/AM`, and otherwise the removed part is one of those four. |
| ValidCall.MatchTail | Files/pyscripts/validcall.py:32-33 | The digit-and-letters part matches up to the end of the text exactly when there is a digit at `n` followed by one to three capitals and then the end. |
| ValidCall.MatchToEnd | Files/pyscripts/validcall.py:27-34 | Trying the prefix alternatives in the regular-expression engine's order succeeds exactly when the whole text matches the pattern. |
| ValidCall.MatchPattern | Files/pyscripts/validcall.py:27-36 | `pattern.match` succeeds exactly when the text matches the pattern, either as a whole or up to a final newline, as Python's `$` allows. |
| ValidCall.RunScript | Files/pyscripts/validcall.py:39-43 | Exit code 2 for a wrong argument count. Otherwise 0 when `is_valid_us_callsign`, as written, accepts the argument, and 1 when it does not. |
| ValidCall.AcceptedShape | Files/pyscripts/validcall.py:27-34 | A matching text has 3 to 6 characters. Exactly one is a digit, at index 1 or 2, and the rest are capitals. It starts with K, N, W or A, and an A is followed by A..L and then the digit. |
| ValidCall.ValidLength | Files/pyscripts/validcall.py:21-36 | A valid callsign normalises to 3 to 6 capitals and digits. |
| ValidCall.MatchesIffShape | Files/pyscripts/validcall.py:27-34 | The regular-expression reading and the character-by-character reading accept the same texts. |
| ValidCall.PlainValidIffShape | Files/pyscripts/validcall.py:21-36 | For a text of capitals and digits, validity is exactly the character-by-character reading. |
| ValidCall.RejectedSamples | Files/pyscripts/validcall.py:29-33 | `A1BC`, `B1ABC`, `AM1ABC`, `K1` and `K1ABCD` do not match. |
| ValidCall.AcceptedSamples | Files/pyscripts/validcall.py:29-33 | `K1ABC`, `N0Q`, `WA2XYZ` and `AL7X` match. |
| ValidCall.WhitespaceAndCaseIgnored | Files/pyscripts/validcall.py:22 | Surrounding whitespace and letter case change neither the normalised text nor validity. |
| ValidCall.PlainIsNormal | Files/pyscripts/validcall.py:22-25 | A text of capitals and digits is its own normal form. |
| ValidCall.MatchIsNormal | Files/pyscripts/validcall.py:22-25 | A matching text is already stripped, upper-case and without a suffix. |
| ValidCall.MatchChars | Files/pyscripts/validcall.py:27-34 | A matching text holds only capitals and digits. |
| ValidCall.ForeignCharRejected | Files/pyscripts/validcall.py:27-34 | A text with a character that is neither a capital nor a digit does not match. |
| ValidCall.StripSuffixOf | Files/pyscripts/validcall.py:25 | Removing the suffix from any text followed by one suffix gives back the text. |
| ValidCall.SuffixKeepsValid | Files/pyscripts/validcall.py:24-25 | A text that matches the pattern (a callsign already in normal form) with one suffix appended, in any case, normalises to that text and stays valid. |
| ValidCall.TwoSuffixesRejected | Files/pyscripts/validcall.py:25 | Only one suffix is removed, so a valid callsign followed by two suffixes is rejected. |
| ValidCall.AppendedRejected | Files/pyscripts/validcall.py:25-34 | When a suffix follows text that contains a character other than a letter or digit, only the suffix is removed and the rest does not match. |
| ValidCall.TwoSuffixesExample | Files/pyscripts/validcall.py:25 | `K1ABC/P/M` normalises to `K1ABC/P` and is rejected. |
| ValidCall.NewlineBeforeSuffix | Files/pyscripts/validcall.py:25-36 | As written, a text that matches the pattern (a callsign already in normal form) followed by a newline and a suffix is accepted. The corrected reading rejects it. |
| ValidCall.InnerSpaceRejected | Files/pyscripts/validcall.py:22-36 | A text that matches the pattern stays valid with a whitespace character after it. Once a suffix follows that character, it is rejected by the corrected reading. With a newline after the whitespace it is also rejected as written. So the suffix lemmas need a matching text, not merely a valid callsign. |
| ValidCall.NewlineExample | Files/pyscripts/validcall.py:25-36 | As written, `KA1ABC\n/P` is accepted although it normalises to 7 characters. The corrected reading rejects it. |
| ValidCall.NoNewlineAfterNormalize | Files/pyscripts/validcall.py:22-25 | Normalising never introduces a newline. |
| ValidCall.AgreesWithoutNewline | Files/pyscripts/validcall.py:33-36 | On input without a newline, the as-written and corrected readings agree. |
| HamGrid.Trunc | Files/pyscripts/hamgrid.py:17 | `int()` truncates toward zero. The result lies within one of its argument, on the side of zero. |
| HamGrid.FMod | Files/pyscripts/hamgrid.py:21 | Float `%` with a positive divisor returns a remainder in `[0, m)`. The argument minus the remainder is a whole multiple of `m`. |
| HamGrid.QuotientRemainder | Files/pyscripts/hamgrid.py:17-22 | A non-negative offset is the divisor times its truncated quotient plus its remainder. |
| HamGrid.NestedCell | Files/pyscripts/hamgrid.py:17-26 | The field, square and subsquare divisions place an offset inside a cell of the subsquare's width. |
| HamGrid.SubCell | Files/pyscripts/hamgrid.py:25-26 | The subsquare index names the cell that holds the remainder. |
| HamGrid.GridConversion | Files/pyscripts/hamgrid.py:16-29 | The locator has six characters. Both fields are A..S, with S exactly at longitude 180 or latitude 90 (there is no clamping). The squares are digits and the subsquares are A..X, and at the 180/90 edges they are 0 and A. |
| HamGrid.Maidenhead | Files/pyscripts/hamgrid.py:36-39 | The printed locator keeps the first four characters, and its last two are a..x. Upper-casing it gives back the computed locator. |
| HamGrid.CellContainsPoint | Files/pyscripts/hamgrid.py:16-39 | Decoding the printed locator gives a cell 1/12 degree wide and 1/24 degree high that contains the point. |
| HamGrid.AxesIndependent | Files/pyscripts/hamgrid.py:17-27 | Characters 0, 2 and 4 depend on the longitude only, and 1, 3 and 5 on the latitude only. |
| HamGrid.HelpTextExample | Files/pyscripts/hamgrid.py:32-39 | 41.714649, -72.728485 encodes to `FN31PR`, printed as `FN31pr`. |
| ValidCoords.ValidateAsWritten | Files/pyscripts/validcoords.py:3-16 | As written, `validate` never returns False. It succeeds exactly when both arguments are numbers, each within its bounds or NaN. |
| ValidCoords.Validate | Files/pyscripts/validcoords.py:3-16 | Corrected, `validate` never returns False. It succeeds exactly when -90 <= lat <= 90 and -180 <= lon <= 180. |
| ValidCoords.CheckOrder | Files/pyscripts/validcoords.py:4-14 | In the corrected reading, the error reported is that of the first failing check, in the order latitude type, longitude type, latitude range, longitude range. |
| ValidCoords.CheckOrderAsWritten | Files/pyscripts/validcoords.py:4-14 | As written, the checks run in the same order, but a NaN fails neither range check. A latitude range error means a latitude that is a number outside -90..90 and not NaN. A longitude range error means a latitude within range or NaN, and a longitude that is a number outside -180..180 and not NaN. |
| ValidCoords.OrderExamples | Files/pyscripts/validcoords.py:4-14 | A non-numeric longitude is reported before an out-of-range latitude. An out-of-range latitude is reported before an out-of-range longitude. |
| ValidCoords.BoundsInclusive | Files/pyscripts/validcoords.py:10-13 | The bounds ±90 and ±180 are accepted. Infinities are rejected. |
| ValidCoords.NaNAccepted | Files/pyscripts/validcoords.py:10-13 | As written, a NaN latitude or longitude passes. The corrected reading rejects it. With a NaN latitude and a longitude of 200, the script reports the longitude, while the corrected reading reports the latitude. |
| ValidCoords.AgreesWithoutNaN | Files/pyscripts/validcoords.py:10-16 | Without a NaN argument, the as-written and corrected readings agree. |
| ValidCoords.AcceptedIsGridDomain | Files/pyscripts/validcoords.py:10-14 | Every accepted pair lies in the encoder's domain. Below latitude 90 and longitude 180, the field letters are A..R. |

## Left out

- Files/pyscripts/gpstest.py, Files/pyscripts/gpsposition.py and Files/pyscripts/coordinates.py: these do serial-port I/O, blocking reads and `pynmea2` parsing, and they format floats. They contain no pure logic to model.
- Files/pyscripts/hamgrid.py's module-level `argparse` parsing (lines 31-34) and its `print` (line 41) are not modelled. `HamGrid.GridConversion` takes the two numbers, and `HamGrid.Maidenhead` returns the text that would be printed.
- Printing and `SystemExit` in Files/pyscripts/aprspass.py and Files/pyscripts/validcall.py: only the argument count, the blank-argument check and the exit codes are modelled. `argv` is a parameter, and what would be printed is a return value.
- `main` in DigiHub/pyscripts/aprspass.py is not modelled, only its `aprs_passcode`. That `main` is `argparse` parsing, with its own usage errors, exit code 2 and `--help`, followed by printing `Callsign:` and `Passcode:` lines. These are library behaviour and output formatting, not logic of the script.
- Letter case: the model covers ASCII letters only. Python's full Unicode case mapping is not modelled, for example `"ß".upper() == "SS"` or `"ſ".upper() == "S"`, which can turn non-ASCII input into ASCII letters.
- Whitespace: `str.isspace()` is written out as the set of code points CPython treats as whitespace: 9..13, 28..32, U+0085, U+00A0, U+1680, U+2000..U+200A, U+2028, U+2029, U+202F, U+205F and U+3000. The model fixes this list instead of deriving it from a Unicode database version.
- Arguments containing lone surrogates are not modelled. A Dafny `char` is a Unicode scalar value, so it excludes U+D800..U+DFFF. On Linux, Python passes undecodable bytes in `sys.argv` as lone surrogates. Neither `AprsPass.RunScript` nor `ValidCall.RunScript` can be given such an argument.
- The `$` in both suffix-removal patterns also matches before a final newline. The model reads it as the end of the text, because the patterns are applied only to stripped text, which cannot end in a newline.
- HamGrid.GridConversion: the encoder runs on real numbers, not IEEE-754 floats. `2/24` and `1/24` are inexact in floats, so float results at cell boundaries may differ from these.
- HamGrid.GridConversion: it is modelled only on the validated domain (latitude -90..90, longitude -180..180). Outside that domain, truncation of negative values and `chr`/`str` on out-of-range indices give other characters or raise, which is not modelled.
- Python's `isinstance` is modelled as a small input datatype of numbers, infinities, NaN and non-numbers. Python's `bool` being an `int` is not a separate case; a `True` or `False` argument behaves as the number 1 or 0.

## Findings

| source | as written | input that shows it | evidently intended | confidence | as-written member | corrected member |
|---|---|---|---|---|---|---|
| Files/pyscripts/validcall.py:25-36 | The suffix removal can expose a newline, and `$` in the callsign pattern matches just before a final newline. | `"KA1ABC\n/P"` is accepted, and the normalised text `"KA1ABC\n"` has 7 characters. | The pattern matches the whole text, so only 3 to 6 capitals and digits are accepted. | not executed | ValidCall.NewlineExample | ValidCall.ValidLength |
| Files/pyscripts/validcoords.py:10-13 | The range checks are written as "below the lower bound or above the upper bound", and every comparison with NaN is false. | `validate(float("nan"), 0.0)` returns True. | Only values within the bounds are accepted, so NaN is rejected. | not executed | ValidCoords.NaNAccepted | ValidCoords.Validate |

=== FILE: aprspass.dfy ===
/** Files/pyscripts/aprspass.py: the passcode of a callsign after trimming,
    upper-casing, removing one portable suffix and dropping the SSID, and
    the command-line entry point's exit codes. */
module AprsPass {
  import opened Ascii
  import opened PyInt
  import opened PasscodeHash

  /** The suffixes `PORTABLE_RE` matches (case-insensitively). */
  const PortableSuffixes: seq<string> := ["/P", "/M", "/MM"]

  /** `s` ends with `v`, ignoring letter case. */
  predicate EndsWithFolded(s: string, v: string) {
    |v| <= |s| && ToUpper(s[|s| - |v|..]) == v
  }

  predicate HasPortableSuffix(s: string) {
    EndsWithFolded(s, "/MM") || EndsWithFolded(s, "/P") || EndsWithFolded(s, "/M")
  }

  /** `PORTABLE_RE.sub("", s)`. The pattern is anchored at the end and no
      two of its alternatives end one string, so at most one suffix goes.
      The callers only apply it to stripped text, which cannot end in a
      newline, so `$` means the end of the string here. */
  function StripPortable(s: string): (r: string)
    ensures |r| <= |s| && r == s[..|r|]
    ensures r == s <==> !HasPortableSuffix(s)
    ensures r != s ==> ToUpper(s[|r|..]) in PortableSuffixes
  {
    if EndsWithFolded(s, "/MM") then s[..|s| - 3]
    else if EndsWithFolded(s, "/P") || EndsWithFolded(s, "/M") then s[..|s| - 2]
    else s
  }

  /** Whether a text ends in a portable suffix does not depend on its
      letter case. */
  lemma FoldedSuffixOfUpper(s: string)
    ensures HasPortableSuffix(ToUpper(s)) == HasPortableSuffix(s)
  {
    if |s| >= 2 {
      UpperOfTail(s, |s| - 2);
    }
    if |s| >= 3 {
      UpperOfTail(s, |s| - 3);
    }
  }

  lemma UpperOfTail(s: string, k: nat)
    requires k <= |s|
    ensures ToUpper(ToUpper(s)[k..]) == ToUpper(s[k..])
  {
    assert ToUpper(s)[k..] == ToUpper(s[k..]);
    UpperIdempotent(s[k..]);
  }

  /** `normalize_callsign`. */
  function NormalizeCallsign(callsign: string): string {
    StripPortable(ToUpper(Strip(callsign)))
  }

  /** `aprs_passcode`, as a value. */
  function Passcode(callsign: string): (r: nat)
    ensures r <= 0x7FFF
  {
    PasscodeOf(BaseCall(NormalizeCallsign(callsign)))
  }

  /** The loop of `aprs_passcode` in Files/pyscripts/aprspass.py over a base
      callsign: left to right, testing the index with `i & 1`. */
  method FoldHash(base: string) returns (h: nat)
    ensures h == HashOf(base)
  {
    h := Seed;
    assert h == HashOf(base[..0]) by { EmptyBaseIsSeed(base[..0]); }
    var i := 0;
    while i < |base|
      invariant i <= |base|
      invariant h == HashOf(base[..i])
    {
      var ch := base[i];
      FoldStep(base, i);
      if BitAnd(i, 1) != 0 {
        h := Xor(h, Ord(ch));
      } else {
        h := Xor(h, Shl(Ord(ch), 8));
      }
      i := i + 1;
    }
    assert base[..|base|] == base;
  }

  /** One iteration of the loop: an odd index goes to the low byte, an even
      one to the high byte. */
  lemma FoldStep(base: string, i: nat)
    requires i < |base|
    ensures BitAnd(i, 1) != 0 ==> HashOf(base[..i + 1]) == Xor(HashOf(base[..i]), Ord(base[i]))
    ensures BitAnd(i, 1) == 0 ==> HashOf(base[..i + 1]) == Xor(HashOf(base[..i]), Shl(Ord(base[i]), 8))
  {
    LowBitIsParity(i);
    HashOfSnoc(base, i);
  }

  /** `aprs_passcode` in Files/pyscripts/aprspass.py, step by step. */
  method AprsPasscode(callsign: string) returns (p: nat)
    ensures p == Passcode(callsign)
  {
    var cs := NormalizeCallsign(callsign);
    var base := BaseCall(cs);
    var h := FoldHash(base);
    p := BitAnd(h, Mask15);
  }

  /** What `main` does: a usage error, or the passcode printed. */
  datatype Run = UsageError | Printed(passcode: nat)

  function ExitCode(run: Run): int {
    match run
    case UsageError => 2
    case Printed(_) => 0
  }

  /** `main`, given `sys.argv` (program name first). */
  method RunScript(argv: seq<string>) returns (run: Run)
    ensures run.UsageError? <==> |argv| != 2 || Strip(argv[1]) == []
    ensures run.Printed? ==> |argv| == 2 && run.passcode == Passcode(argv[1])
    ensures run.Printed? ==> run.passcode <= 0x7FFF
    ensures ExitCode(run) == 0 <==> run.Printed?
  {
    if |argv| != 2 {
      return UsageError;
    }
    var cs := argv[1];
    if Strip(cs) == [] {
      return UsageError;
    }
    var p := AprsPasscode(cs);
    run := Printed(p);
  }

  /** Surrounding whitespace and letter case do not affect the passcode. */
  lemma WhitespaceAndCaseIgnored(w1: string, s: string, w2: string, t: string)
    requires AllSpace(w1) && AllSpace(w2)
    requires ToUpper(s) == ToUpper(t)
    ensures NormalizeCallsign(w1 + s + w2) == NormalizeCallsign(t)
    ensures Passcode(w1 + s + w2) == Passcode(t)
  {
    StripIgnoresPadding(w1, s, w2);
    UpperCommutesWithStrip(s);
    UpperCommutesWithStrip(t);
  }

  /** `" k1abc "` and `"K1ABC"` get the same passcode. Each text is a
      parameter fixed by `requires`, not a literal in the contract: on a literal
      the verifier unfolds the recursive string and bit functions step by step,
      at far greater cost. */
  lemma PaddedLowerCaseExample(c: string, d: string)
    requires c == " k1abc " && d == "K1ABC"
    ensures Passcode(c) == Passcode(d)
  {
    var w, s := " ", "k1abc";
    assert c == w + s + w;
    assert ToUpper(s) == ToUpper(d);
    WhitespaceAndCaseIgnored(w, s, w, d);
  }

  /** A normalised callsign is stripped and upper-case. */
  lemma NormalizedIsStrippedUpper(b: string)
    requires NormalizeCallsign(b) == b
    ensures Strip(b) == b && TrimLeft(b) == b && ToUpper(b) == b
  {
    var t := TrimLeft(b);
    assert |Strip(b)| <= |t| <= |b|;
    assert |t| == |b|;
    assert t == b;
    assert Strip(b) == b;
  }

  /** `strip()` of a left-trimmed callsign, a `-` and an SSID only trims
      the SSID. */
  lemma StripOfDashed(b: string, ssid: string)
    requires TrimLeft(b) == b
    ensures Strip(b + "-" + ssid) == b + "-" + TrimRight(ssid)
  {
    var tail := "-" + ssid;
    assert tail[0] == '-';
    assert TrimLeft(tail) == tail;
    assert b + "-" + ssid == b + tail;
    TrimLeftAppend(b, tail);
    var head := b + "-";
    assert head[|head| - 1] == '-';
    assert TrimRight(head) == head;
    assert b + tail == head + ssid;
    TrimRightPrepend(head, ssid);
  }

  /** A portable suffix never reaches back to a `-`. */
  lemma StripPortableKeepsDash(b: string, y: string)
    ensures var r := StripPortable(b + "-" + y); |b| < |r| && r == b + "-" + r[|b| + 1..]
  {
    var u := b + "-" + y;
    var r := StripPortable(u);
    assert u[|b|] == '-';
    if r != u {
      var sfx := u[|r|..];
      var v := ToUpper(sfx);
      assert v in PortableSuffixes;
      assert v == "/P" || v == "/M" || v == "/MM";
      assert forall k :: 0 <= k < |sfx| ==> v[k] == UpperChar(sfx[k]) && v[k] != '-';
      assert forall k :: 0 <= k < |sfx| ==> sfx[k] != '-';
      assert forall k :: |r| <= k < |u| ==> u[k] == sfx[k - |r|];
    }
  }

  /** Normalising a normalised callsign followed by `-` and an SSID only
      trims and upper-cases the SSID before the suffix removal. */
  lemma NormalizeDashed(b: string, ssid: string)
    requires NormalizeCallsign(b) == b
    ensures NormalizeCallsign(b + "-" + ssid) == StripPortable(b + "-" + ToUpper(TrimRight(ssid)))
  {
    NormalizedIsStrippedUpper(b);
    StripOfDashed(b, ssid);
    var t := TrimRight(ssid);
    UpperOfConcat(b + "-", t);
    UpperOfConcat(b, "-");
    assert ToUpper("-") == "-";
  }

  /** Appending `-SSID` to a normalised callsign without `-` leaves the
      passcode unchanged, whatever the SSID. */
  lemma SsidIgnored(b: string, ssid: string)
    requires NormalizeCallsign(b) == b && '-' !in b
    ensures BaseCall(NormalizeCallsign(b + "-" + ssid)) == b
    ensures Passcode(b + "-" + ssid) == Passcode(b)
  {
    assert BaseCall(NormalizeCallsign(b + "-" + ssid)) == b by {
      NormalizeDashed(b, ssid);
      var y := ToUpper(TrimRight(ssid));
      StripPortableKeepsDash(b, y);
      var r := StripPortable(b + "-" + y);
      BaseCallOfSsid(b, r[|b| + 1..]);
    }
    assert BaseCall(NormalizeCallsign(b)) == b by {
      assert |BaseCall(b)| == |b|;
    }
  }

  /** The upper-cased form of a portable suffix, spelled out. */
  lemma PortableSuffixShape(sfx: string)
    requires ToUpper(sfx) in PortableSuffixes
    ensures 2 <= |sfx| && sfx[0] == '/' && !IsSpace(sfx[|sfx| - 1])
  {
    var u := ToUpper(sfx);
    assert u == "/P" || u == "/M" || u == "/MM";
    assert u[0] == UpperChar(sfx[0]);
    assert u[|u| - 1] == UpperChar(sfx[|sfx| - 1]);
  }

  /** Exactly one trailing `/P`, `/M` or `/MM`, in any case, is removed
      before hashing. */
  lemma PortableSuffixRemovedOnce(s: string, sfx: string)
    requires |s| > 0 ==> !IsSpace(s[0])
    requires ToUpper(sfx) in PortableSuffixes
    ensures NormalizeCallsign(s + sfx) == ToUpper(s)
    ensures Passcode(s + sfx) == PasscodeOf(BaseCall(ToUpper(s)))
  {
    PortableSuffixShape(sfx);
    var x := s + sfx;
    assert x[0] == if |s| > 0 then s[0] else sfx[0];
    assert x[|x| - 1] == sfx[|sfx| - 1];
    StripOfTrimmed(x);
    UpperOfConcat(s, sfx);
    StripPortableOfSuffix(ToUpper(s), ToUpper(sfx));
  }

  /** The branch `StripPortable` takes on an upper-case text ending in a
      portable suffix. */
  lemma StripPortableOfSuffix(a: string, v: string)
    requires v in PortableSuffixes
    ensures StripPortable(a + v) == a
  {
    var u := a + v;
    assert u[..|a|] == a;
    if v == "/MM" {
      StripPortableOfDoubleM(a);
    } else {
      StripPortableOfShort(a, v);
    }
  }

  lemma StripPortableOfDoubleM(a: string)
    ensures EndsWithFolded(a + "/MM", "/MM")
  {
    var u := a + "/MM";
    assert u[|u| - 3..] == "/MM";
    assert ToUpper("/MM") == "/MM";
  }

  lemma StripPortableOfShort(a: string, v: string)
    requires v == "/P" || v == "/M"
    ensures !EndsWithFolded(a + v, "/MM") && EndsWithFolded(a + v, v)
  {
    var u := a + v;
    assert u[|u| - 2..] == v;
    assert ToUpper(v) == v;
    assert u[|u| - 2] == '/';
    SlashBeforeLast(u);
  }

  /** A text whose last but one character is `/` does not end in `/MM`. */
  lemma SlashBeforeLast(u: string)
    requires |u| >= 2 && u[|u| - 2] == '/'
    ensures !EndsWithFolded(u, "/MM")
  {
    if |u| >= 3 {
      var w := u[|u| - 3..];
      assert UpperChar(w[1]) == '/';
      assert ToUpper(w)[1] != "/MM"[1];
    }
  }

  /** A normalised callsign with a portable suffix appended hashes like the
      callsign itself. */
  lemma PortableSuffixIgnored(b: string, sfx: string)
    requires NormalizeCallsign(b) == b
    requires ToUpper(sfx) in PortableSuffixes
    ensures Passcode(b + sfx) == Passcode(b)
  {
    NormalizedIsStrippedUpper(b);
    PortableSuffixRemovedOnce(b, sfx);
  }

  /** Only the last of two portable suffixes is removed: `K1ABC/P/P` is
      hashed as `K1ABC/P`. The text is a parameter fixed by `requires`, not a
      literal in the contract: on a literal the verifier unfolds the recursive
      string and bit functions step by step, at far greater cost. */
  lemma DoubleSuffixExample(c: string)
    requires c == "K1ABC/P/P"
    ensures NormalizeCallsign(c) == "K1ABC/P"
    ensures BaseCall(NormalizeCallsign(c)) == "K1ABC/P"
  {
    assert Capitals("K1ABC/P") && Capitals("/P");
    var b, v := "K1ABC/P", "/P";
    assert c == b + v;
    UpperFixed(v);
    PortableSuffixRemovedOnce(b, v);
    UpperFixed(b);
  }

  /** A text of capitals, digits and `/` is its own upper case and its own
      base. */
  lemma {:induction false} UpperFixed(s: string)
    requires Capitals(s)
    ensures ToUpper(s) == s && BaseCall(s) == s
  {
    if s != [] {
      UpperFixed(s[1..]);
      assert ToUpper(s) == [UpperChar(s[0])] + ToUpper(s[1..]);
    }
  }

  /** Every character is a capital, a digit or `/`. */
  predicate Capitals(s: string) {
    s == [] || ((IsUpper(s[0]) || IsDigit(s[0]) || s[0] == '/') && Capitals(s[1..]))
  }

  /** A callsign whose base is empty (such as "-5") gets the seed, 29666. */
  lemma EmptyBasePasscode(callsign: string)
    requires BaseCall(NormalizeCallsign(callsign)) == []
    ensures Passcode(callsign) == 29666
  {
    EmptyBaseIsSeed(BaseCall(NormalizeCallsign(callsign)));
  }

  /** Text without a `/` has no portable suffix to lose. */
  lemma NoSlashKept(s: string)
    requires '/' !in s
    ensures StripPortable(s) == s
  {
    if |s| >= 2 {
      assert ToUpper(s[|s| - 2..])[0] == UpperChar(s[|s| - 2]) != '/';
    }
    if |s| >= 3 {
      assert ToUpper(s[|s| - 3..])[0] == UpperChar(s[|s| - 3]) != '/';
    }
  }

  /** A callsign that starts with `-` (such as `-5`) has an empty base
      and so gets the seed, 29666. */
  lemma LeadingDashPasscode(c: string)
    requires |c| > 0 && c[0] == '-'
    ensures BaseCall(NormalizeCallsign(c)) == []
    ensures Passcode(c) == 29666
  {
    var e: string := [];
    assert NormalizeCallsign(e) == e;
    assert c == e + "-" + c[1..];
    NormalizeDashed(e, c[1..]);
    StripPortableKeepsDash(e, ToUpper(TrimRight(c[1..])));
    EmptyBasePasscode(c);
  }
}

=== FILE: ascii.dfy ===
/** Character classes and the string normalisations the scripts share:
    Python's `str.strip()`, and `str.upper()` / `str.lower()` restricted
    to ASCII letters. */
module Ascii {

  /** Python's `str.isspace()`, as the set of code points CPython treats as
      whitespace: 9..13, 28..32, U+0085, U+00A0, U+1680, U+2000..U+200A,
      U+2028, U+2029, U+202F, U+205F and U+3000. */
  predicate IsSpace(c: char) {
    var n := c as int;
    (9 <= n <= 13) || (28 <= n <= 32) || n == 0x85 || n == 0xA0 || n == 0x1680
    || (0x2000 <= n <= 0x200A) || n == 0x2028 || n == 0x2029 || n == 0x202F
    || n == 0x205F || n == 0x3000
  }

  predicate IsUpper(c: char) { 'A' <= c <= 'Z' }

  predicate IsLower(c: char) { 'a' <= c <= 'z' }

  predicate IsDigit(c: char) { '0' <= c <= '9' }

  predicate AllSpace(s: string) {
    forall i :: 0 <= i < |s| ==> IsSpace(s[i])
  }

  predicate EndsWith(s: string, suffix: string) {
    |suffix| <= |s| && s[|s| - |suffix|..] == suffix
  }

  function UpperChar(c: char): char {
    if IsLower(c) then (c as int - 32) as char else c
  }

  function LowerChar(c: char): char {
    if IsUpper(c) then (c as int + 32) as char else c
  }

  /** `s.upper()` on ASCII letters; every other character is kept. */
  function ToUpper(s: string): string {
    seq(|s|, i requires 0 <= i < |s| => UpperChar(s[i]))
  }

  /** `s.lower()` on ASCII letters; every other character is kept. */
  function ToLower(s: string): string {
    seq(|s|, i requires 0 <= i < |s| => LowerChar(s[i]))
  }

  /** Removes the longest all-space prefix. */
  function TrimLeft(s: string): (r: string)
    ensures |r| <= |s|
    ensures r == s[|s| - |r|..]
    ensures forall i :: 0 <= i < |s| - |r| ==> IsSpace(s[i])
    ensures |r| > 0 ==> !IsSpace(r[0])
  {
    if |s| > 0 && IsSpace(s[0]) then TrimLeft(s[1..]) else s
  }

  /** Removes the longest all-space suffix. */
  function TrimRight(s: string): (r: string)
    ensures |r| <= |s|
    ensures r == s[..|r|]
    ensures forall i :: |r| <= i < |s| ==> IsSpace(s[i])
    ensures |r| > 0 ==> !IsSpace(r[|r| - 1])
  {
    if |s| > 0 && IsSpace(s[|s| - 1]) then TrimRight(s[..|s| - 1]) else s
  }

  /** `s.strip()`: the slice of `s` left after dropping leading and
      trailing whitespace. */
  function Strip(s: string): (r: string)
    ensures LeadingSpaces(s) + |r| <= |s|
    ensures r == s[LeadingSpaces(s)..LeadingSpaces(s) + |r|]
    ensures AllSpace(s[..LeadingSpaces(s)])
    ensures AllSpace(s[LeadingSpaces(s) + |r|..])
    ensures |r| > 0 ==> !IsSpace(r[0]) && !IsSpace(r[|r| - 1])
  {
    TrimRight(TrimLeft(s))
  }

  /** How many characters `strip()` removes from the front of `s`. */
  function LeadingSpaces(s: string): nat {
    |s| - |TrimLeft(s)|
  }

  lemma {:induction false} TrimLeftOfSpaces(w: string)
    requires AllSpace(w)
    ensures TrimLeft(w) == []
    decreases |w|
  {
    if |w| > 0 {
      TrimLeftOfSpaces(w[1..]);
    }
  }

  lemma {:induction false} TrimRightOfSpaces(w: string)
    requires AllSpace(w)
    ensures TrimRight(w) == []
    decreases |w|
  {
    if |w| > 0 {
      TrimRightOfSpaces(w[..|w| - 1]);
    }
  }

  /** Trimming the left of a concatenation only reaches the second part
      when the first part is all whitespace. */
  lemma {:induction false} TrimLeftAppend(s: string, t: string)
    ensures TrimLeft(s + t) == if TrimLeft(s) == [] then TrimLeft(t) else TrimLeft(s) + t
    decreases |s|
  {
    if |s| == 0 {
      assert s + t == t;
    } else if IsSpace(s[0]) {
      assert (s + t)[1..] == s[1..] + t;
      TrimLeftAppend(s[1..], t);
    }
  }

  /** Trimming the right of a concatenation only reaches the first part
      when the second part is all whitespace. */
  lemma {:induction false} TrimRightPrepend(s: string, t: string)
    ensures TrimRight(s + t) == if TrimRight(t) == [] then TrimRight(s) else s + TrimRight(t)
    decreases |t|
  {
    if |t| == 0 {
      assert s + t == s;
    } else if IsSpace(t[|t| - 1]) {
      assert (s + t)[..|s + t| - 1] == s + t[..|t| - 1];
      TrimRightPrepend(s, t[..|t| - 1]);
    }
  }

  /** Whitespace added around a string does not survive `strip()`. */
  lemma StripIgnoresPadding(w1: string, s: string, w2: string)
    requires AllSpace(w1) && AllSpace(w2)
    ensures Strip(w1 + s + w2) == Strip(s)
  {
    assert TrimLeft(w1 + s + w2) == TrimLeft(s + w2) by {
      assert w1 + s + w2 == w1 + (s + w2);
      TrimLeftPadding(w1, s + w2);
    }
    var t := TrimLeft(s);
    assert TrimLeft(s + w2) == if t == [] then [] else t + w2 by {
      TrimLeftAppend(s, w2);
      TrimLeftOfSpaces(w2);
    }
    if t != [] {
      TrimRightPadding(t, w2);
    }
  }

  /** Leading whitespace does not survive `TrimLeft`. */
  lemma TrimLeftPadding(w: string, s: string)
    requires AllSpace(w)
    ensures TrimLeft(w + s) == TrimLeft(s)
  {
    TrimLeftOfSpaces(w);
    TrimLeftAppend(w, s);
  }

  /** Trailing whitespace does not survive `TrimRight`. */
  lemma TrimRightPadding(s: string, w: string)
    requires AllSpace(w)
    ensures TrimRight(s + w) == TrimRight(s)
  {
    TrimRightOfSpaces(w);
    TrimRightPrepend(s, w);
  }

  /** A string whose ends are not whitespace is its own `strip()`. */
  lemma StripOfTrimmed(s: string)
    requires |s| > 0 ==> !IsSpace(s[0]) && !IsSpace(s[|s| - 1])
    ensures Strip(s) == s
  {
    var t := TrimLeft(s);
    if |s| > 0 {
      assert |t| == |s|;
    }
    assert t == s;
  }

  /** Upper-casing commutes with `strip()`: no ASCII letter is whitespace. */
  lemma {:induction false} UpperCommutesWithStrip(s: string)
    ensures Strip(ToUpper(s)) == ToUpper(Strip(s))
  {
    UpperCommutesWithTrimLeft(s);
    UpperCommutesWithTrimRight(TrimLeft(s));
  }

  lemma {:induction false} UpperCommutesWithTrimLeft(s: string)
    ensures TrimLeft(ToUpper(s)) == ToUpper(TrimLeft(s))
    decreases |s|
  {
    if |s| > 0 {
      assert IsSpace(ToUpper(s)[0]) == IsSpace(s[0]);
    }
    if |s| > 0 && IsSpace(s[0]) {
      assert ToUpper(s)[1..] == ToUpper(s[1..]);
      UpperCommutesWithTrimLeft(s[1..]);
    }
  }

  lemma {:induction false} UpperCommutesWithTrimRight(s: string)
    ensures TrimRight(ToUpper(s)) == ToUpper(TrimRight(s))
    decreases |s|
  {
    if |s| > 0 {
      assert IsSpace(ToUpper(s)[|s| - 1]) == IsSpace(s[|s| - 1]);
    }
    if |s| > 0 && IsSpace(s[|s| - 1]) {
      assert ToUpper(s)[..|s| - 1] == ToUpper(s[..|s| - 1]);
      UpperCommutesWithTrimRight(s[..|s| - 1]);
    }
  }

  lemma UpperOfConcat(a: string, b: string)
    ensures ToUpper(a + b) == ToUpper(a) + ToUpper(b)
  {
    assert forall i :: 0 <= i < |a + b| ==> ToUpper(a + b)[i] == (ToUpper(a) + ToUpper(b))[i];
  }

  lemma UpperIdempotent(s: string)
    ensures ToUpper(ToUpper(s)) == ToUpper(s)
  {
  }

  /** Upper-casing forgets whether a letter was lower-case. */
  lemma UpperOfLower(s: string)
    ensures ToUpper(ToLower(s)) == ToUpper(s)
  {
    assert forall i :: 0 <= i < |s| ==> ToUpper(ToLower(s))[i] == UpperChar(LowerChar(s[i]));
  }
}

=== FILE: digihub_aprspass.dfy ===
/** DigiHub/pyscripts/aprspass.py: the simpler passcode generator, which
    upper-cases the callsign and drops everything from the first `-`, with
    no trimming and no portable-suffix removal. */
module DigiHubAprsPass {
  import opened Ascii
  import opened PyInt
  import opened PasscodeHash
  import AprsPass

  /** `aprs_passcode`, as a value. */
  function Passcode(callsign: string): (r: nat)
    ensures r <= 0x7FFF
  {
    PasscodeOf(BaseCall(ToUpper(callsign)))
  }

  /** `aprs_passcode` in DigiHub/pyscripts/aprspass.py, step by step:
      the index parity is tested with `i % 2 == 0`. */
  method ComputePasscode(callsign: string) returns (p: nat)
    ensures p == Passcode(callsign)
    ensures p <= 0x7FFF
  {
    var base := BaseCall(ToUpper(callsign));
    var h := Seed;
    assert h == HashOf(base[..0]) by { EmptyBaseIsSeed(base[..0]); }
    var i := 0;
    while i < |base|
      invariant i <= |base|
      invariant h == HashOf(base[..i])
    {
      var ch := base[i];
      if i % 2 == 0 {
        h := Xor(h, Shl(Ord(ch), 8));
      } else {
        h := Xor(h, Ord(ch));
      }
      HashOfSnoc(base, i);
      i := i + 1;
    }
    assert base[..|base|] == base;
    p := BitAnd(h, Mask15);
  }

  /** The text that is hashed is the upper-cased callsign up to, and not
      including, its first `-`: nothing is trimmed and no suffix is
      removed. */
  lemma HashedText(callsign: string)
    ensures var h := BaseCall(ToUpper(callsign));
      |h| <= |callsign| && h == ToUpper(callsign[..|h|])
      && '-' !in callsign[..|h|]
      && (|h| < |callsign| ==> callsign[|h|] == '-')
  {
    var u := ToUpper(callsign);
    var h := BaseCall(u);
    assert forall k :: 0 <= k < |h| ==> h[k] == u[k] == UpperChar(callsign[k]);
    assert forall k :: 0 <= k < |h| ==> callsign[k] != '-';
    if |h| < |callsign| {
      assert UpperChar(callsign[|h|]) == '-';
    }
  }

  /** Anything from the first `-` onward is ignored. */
  lemma IgnoresFromFirstDash(s: string, t: string)
    requires '-' in s
    ensures Passcode(s + t) == Passcode(s)
  {
    UpperOfConcat(s, t);
    var k :| 0 <= k < |s| && s[k] == '-';
    assert ToUpper(s)[k] == '-';
    BaseCallIgnoresTail(ToUpper(s), ToUpper(t));
  }

  /** Letter case does not affect the passcode. */
  lemma CaseInsensitive(s: string)
    ensures Passcode(ToLower(s)) == Passcode(s)
    ensures Passcode(ToUpper(s)) == Passcode(s)
  {
    UpperOfLower(s);
    UpperIdempotent(s);
  }

  /** The empty callsign gets the seed, 29666. The text is a parameter fixed
      by `requires`, not a literal in the contract: on a literal the verifier
      unfolds the recursive string and bit functions step by step, at far
      greater cost. */
  lemma EmptyCallsign(callsign: string)
    requires callsign == []
    ensures Passcode(callsign) == 29666
  {
    assert ToUpper(callsign) == [];
    EmptyBaseIsSeed(BaseCall(ToUpper(callsign)));
  }

  /** On a callsign with no surrounding whitespace and no portable suffix,
      this variant and the one in Files/pyscripts/aprspass.py agree. */
  lemma AgreesWithFilesVariant(callsign: string)
    requires Strip(callsign) == callsign
    requires !AprsPass.HasPortableSuffix(callsign)
    ensures Passcode(callsign) == AprsPass.Passcode(callsign)
  {
    AprsPass.FoldedSuffixOfUpper(callsign);
  }

  /** Unlike the Files variant, a portable suffix is hashed along with the
      callsign it follows. */
  lemma KeepsPortableSuffix(b: string, sfx: string)
    requires '-' !in b
    requires ToUpper(sfx) in AprsPass.PortableSuffixes
    ensures BaseCall(ToUpper(b + sfx)) == ToUpper(b) + ToUpper(sfx)
  {
    UpperOfConcat(b, sfx);
    var u := ToUpper(b) + ToUpper(sfx);
    assert ToUpper(sfx) == "/P" || ToUpper(sfx) == "/M" || ToUpper(sfx) == "/MM";
    assert forall k :: 0 <= k < |b| ==> u[k] == UpperChar(b[k]) && b[k] != '-';
    assert '-' !in u;
    NoDashIsOwnBase(u);
  }

  /** A text without `-` is its own base. */
  lemma NoDashIsOwnBase(s: string)
    requires '-' !in s
    ensures BaseCall(s) == s
  {
  }
}

=== FILE: hamgrid.dfy ===
/** Files/pyscripts/hamgrid.py: the six-character Maidenhead locator of a
    latitude and longitude, computed over the reals (the script uses binary
    floating point). */
module HamGrid {
  import opened Ascii

  /** The ranges the coordinate validator accepts; the encoder is only
      modelled on these. */
  predicate InDomain(lat: real, lon: real) {
    -90.0 <= lat <= 90.0 && -180.0 <= lon <= 180.0
  }

  /** Python's `int(x)` on a float: truncation toward zero. */
  function Trunc(x: real): (n: int)
    ensures 0.0 <= x ==> 0 <= n && n as real <= x < n as real + 1.0
    ensures x <= 0.0 ==> n <= 0 && n as real - 1.0 < x <= n as real
  {
    if x >= 0.0 then x.Floor else -((-x).Floor)
  }

  /** Python's `x % m` on floats for a positive `m`: the remainder takes
      the sign of `m`. */
  function FMod(x: real, m: real): (r: real)
    requires m > 0.0
    ensures 0.0 <= r < m
    ensures ((x - r) / m).Floor as real == (x - r) / m
  {
    var q := (x / m).Floor as real;
    RemainderRange(x, m, q);
    x - m * q
  }

  lemma RemainderRange(x: real, m: real, q: real)
    requires m > 0.0 && q == (x / m).Floor as real
    ensures 0.0 <= x - m * q < m
    ensures ((x - (x - m * q)) / m).Floor as real == (x - (x - m * q)) / m
  {
    DivFloor(x, m);
    assert x - (x - m * q) == m * q;
    assert (m * q) / m == q;
  }

  /** `m` times the floor of `x / m` is at most `x`, and within `m` of it. */
  lemma DivFloor(x: real, m: real)
    requires m > 0.0
    ensures var q := (x / m).Floor as real; m * q <= x < m * q + m
  {
    var d := x / m;
    var q := d.Floor as real;
    assert m * d == x;
    MulLess(m, q, d);
    MulLess(m, d, q + 1.0);
    assert m * (q + 1.0) == m * q + m;
  }

  lemma MulLess(m: real, a: real, b: real)
    requires m > 0.0 && a <= b
    ensures m * a <= m * b && (a < b ==> m * a < m * b)
  {
  }

  /** `chr(ord('A') + n)`. */
  function Letter(n: int): char
    requires 0 <= n < 26
  {
    (65 + n) as char
  }

  /** `str(n)` for a single decimal digit. */
  function Digit(n: int): char
    requires 0 <= n < 10
  {
    (48 + n) as char
  }

  /** `grid_conversion(latitude, longitude)`. */
  function GridConversion(lat: real, lon: real): (g: string)
    requires InDomain(lat, lon)
    ensures |g| == 6
    ensures 'A' <= g[0] <= 'S' && (g[0] == 'S' <==> lon == 180.0)
    ensures 'A' <= g[1] <= 'S' && (g[1] == 'S' <==> lat == 90.0)
    ensures IsDigit(g[2]) && IsDigit(g[3])
    ensures 'A' <= g[4] <= 'X' && 'A' <= g[5] <= 'X'
    ensures lon == 180.0 ==> g[2] == '0' && g[4] == 'A'
    ensures lat == 90.0 ==> g[3] == '0' && g[5] == 'A'
  {
    var x := lon + 180.0;
    var y := lat + 90.0;
    var fieldLon := Trunc(x / 20.0);
    var fieldLat := Trunc(y / 10.0);
    var squareLon := Trunc(FMod(x, 20.0) / 2.0);
    var squareLat := Trunc(FMod(y, 10.0) / 1.0);
    var subLon := Trunc(FMod(FMod(x, 20.0), 2.0) / (2.0 / 24.0));
    var subLat := Trunc(FMod(FMod(y, 10.0), 1.0) / (1.0 / 24.0));
    [Letter(fieldLon), Letter(fieldLat), Digit(squareLon), Digit(squareLat),
     Letter(subLon), Letter(subLat)]
  }

  /** The script's last step: the first four characters unchanged and the
      last two lower-cased. */
  function Maidenhead(lat: real, lon: real): (m: string)
    requires InDomain(lat, lon)
    ensures |m| == 6
    ensures m[..4] == GridConversion(lat, lon)[..4]
    ensures 'a' <= m[4] <= 'x' && 'a' <= m[5] <= 'x'
    ensures ToUpper(m) == GridConversion(lat, lon)
  {
    var g := GridConversion(lat, lon);
    var m := g[..4] + ToLower(g[4..]);
    assert ToUpper(m)[4] == g[4] && ToUpper(m)[5] == g[5];
    assert forall k :: 0 <= k < 4 ==> ToUpper(m)[k] == g[k];
    m
  }

  /** A non-negative `x` is `m` times its truncated quotient plus its
      remainder. */
  lemma QuotientRemainder(x: real, m: real)
    requires x >= 0.0 && m > 0.0
    ensures x == m * Trunc(x / m) as real + FMod(x, m)
  {
    var r := FMod(x, m);
    var k := (x - r) / m;
    var f := Trunc(x / m);
    assert m * k == x - r;
    assert x / m == k + r / m;
    MulLess(1.0 / m, 0.0, r);
    MulLess(1.0 / m, r, m);
    assert 0.0 <= r / m < 1.0;
    assert f == k.Floor;
  }

  /** The three nested divisions of the encoder locate `x` within a cell of
      width `sub`. */
  lemma NestedCell(x: real, big: real, small: real, sub: real)
    requires x >= 0.0 && big > 0.0 && small > 0.0 && sub > 0.0
    ensures var r1 := FMod(x, big);
      var r2 := FMod(r1, small);
      var a := big * Trunc(x / big) as real + small * Trunc(r1 / small) as real + sub * Trunc(r2 / sub) as real;
      a <= x < a + sub
  {
    var r1 := FMod(x, big);
    var r2 := FMod(r1, small);
    QuotientRemainder(x, big);
    QuotientRemainder(r1, small);
    SubCell(r2, sub);
  }

  /** The last division: `r` lies in the `sub`-wide cell its truncated
      quotient names. */
  lemma SubCell(r: real, sub: real)
    requires r >= 0.0 && sub > 0.0
    ensures sub * Trunc(r / sub) as real <= r < sub * Trunc(r / sub) as real + sub
  {
    DivFloor(r, sub);
  }

  /** The position of `c` after `base`, as a real. */
  function Offset(c: char, base: char): real {
    (c as int - base as int) as real
  }

  /** The longitude of the west edge of the cell a printed locator names. */
  function CornerLon(m: string): real
    requires |m| == 6
  {
    -180.0 + 20.0 * Offset(m[0], 'A') + 2.0 * Offset(m[2], '0') + (2.0 / 24.0) * Offset(m[4], 'a')
  }

  /** The latitude of the south edge of the cell a printed locator names. */
  function CornerLat(m: string): real
    requires |m| == 6
  {
    -90.0 + 10.0 * Offset(m[1], 'A') + 1.0 * Offset(m[3], '0') + (1.0 / 24.0) * Offset(m[5], 'a')
  }

  /** Decoding the printed locator gives a cell, 1/12 degree wide and 1/24
      degree high, that contains the point. */
  lemma CellContainsPoint(lat: real, lon: real)
    requires InDomain(lat, lon)
    ensures var m := Maidenhead(lat, lon);
      CornerLon(m) <= lon < CornerLon(m) + 1.0 / 12.0
      && CornerLat(m) <= lat < CornerLat(m) + 1.0 / 24.0
  {
    var m := Maidenhead(lat, lon);
    var x := lon + 180.0;
    var y := lat + 90.0;
    NestedCell(x, 20.0, 2.0, 2.0 / 24.0);
    NestedCell(y, 10.0, 1.0, 1.0 / 24.0);
    assert Offset(m[0], 'A') == Trunc(x / 20.0) as real;
    assert Offset(m[2], '0') == Trunc(FMod(x, 20.0) / 2.0) as real;
    assert Offset(m[4], 'a') == Trunc(FMod(FMod(x, 20.0), 2.0) / (2.0 / 24.0)) as real;
    assert Offset(m[1], 'A') == Trunc(y / 10.0) as real;
    assert Offset(m[3], '0') == Trunc(FMod(y, 10.0) / 1.0) as real;
    assert Offset(m[5], 'a') == Trunc(FMod(FMod(y, 10.0), 1.0) / (1.0 / 24.0)) as real;
  }

  /** Characters 0, 2 and 4 depend on the longitude alone, and 1, 3 and 5
      on the latitude alone. */
  lemma AxesIndependent(lat1: real, lon1: real, lat2: real, lon2: real)
    requires InDomain(lat1, lon1) && InDomain(lat2, lon2)
    ensures var g1 := GridConversion(lat1, lon1);
      var g2 := GridConversion(lat2, lon2);
      (lon1 == lon2 ==> g1[0] == g2[0] && g1[2] == g2[2] && g1[4] == g2[4])
      && (lat1 == lat2 ==> g1[1] == g2[1] && g1[3] == g2[3] && g1[5] == g2[5])
  {
  }

  /** The example from the script's help text. */
  lemma HelpTextExample()
    ensures GridConversion(41.714649, -72.728485) == "FN31PR"
    ensures Maidenhead(41.714649, -72.728485) == "FN31pr"
  {
    var x := -72.728485 + 180.0;
    var y := 41.714649 + 90.0;
    assert x == 107.271515 && y == 131.714649;
    assert Trunc(x / 20.0) == 5;
    assert FMod(x, 20.0) == 7.271515;
    assert Trunc(7.271515 / 2.0) == 3;
    assert FMod(7.271515, 2.0) == 1.271515;
    assert Trunc(1.271515 / (2.0 / 24.0)) == 15;
    assert Trunc(y / 10.0) == 13;
    assert FMod(y, 10.0) == 1.714649;
    assert Trunc(1.714649 / 1.0) == 1;
    assert FMod(1.714649, 1.0) == 0.714649;
    assert Trunc(0.714649 / (1.0 / 24.0)) == 17;
    var g := GridConversion(41.714649, -72.728485);
    assert g == "FN31PR";
    var m := Maidenhead(41.714649, -72.728485);
    assert m == g[..4] + ToLower(g[4..]);
    assert ToLower("PR") == "pr";
  }
}

=== FILE: passcode_hash.dfy ===
/** The APRS-IS passcode hash that both `aprspass.py` scripts compute once
    they have reduced a callsign to its base: the seed 0x73E2, with the code
    point of every character at an even index XORed in shifted left by
    eight bits and that of every character at an odd index XORed in
    unshifted, masked to 15 bits. */
module PasscodeHash {
  import opened PyInt

  const Seed: nat := 0x73E2
  const Mask15: nat := 0x7FFF

  /** Python's `ord(c)`. */
  function Ord(c: char): nat {
    c as nat
  }

  /** `s.split("-")[0]` (equally `s.split("-", 1)[0]`): everything before
      the first `-`, or all of `s` when it has none. */
  function BaseCall(s: string): (r: string)
    ensures |r| <= |s| && r == s[..|r|]
    ensures '-' !in r
    ensures |r| < |s| ==> s[|r|] == '-'
  {
    if |s| == 0 || s[0] == '-' then [] else [s[0]] + BaseCall(s[1..])
  }

  /** A string with no `-` is the base of itself followed by `-` and
      anything at all. */
  lemma {:induction false} BaseCallOfSsid(b: string, ssid: string)
    requires '-' !in b
    ensures BaseCall(b + "-" + ssid) == b
    decreases |b|
  {
    if |b| > 0 {
      assert (b + "-" + ssid)[1..] == b[1..] + "-" + ssid;
      BaseCallOfSsid(b[1..], ssid);
    }
  }

  /** Once the input contains a `-`, nothing appended to it matters. */
  lemma {:induction false} BaseCallIgnoresTail(s: string, t: string)
    requires '-' in s
    ensures BaseCall(s + t) == BaseCall(s)
    decreases |s|
  {
    if s[0] != '-' {
      assert (s + t)[1..] == s[1..] + t;
      BaseCallIgnoresTail(s[1..], t);
    }
  }

  /** Parity of an index as the loops of both `aprs_passcode` functions
      test it. */
  predicate EvenIndex(i: nat) {
    i % 2 == 0
  }

  /** What the loop XORs in for character `c` at index `i`. */
  function Step(c: char, i: nat): nat {
    if EvenIndex(i) then Shl(Ord(c), 8) else Ord(c)
  }

  /** The XOR of the code points of the characters of `s` at indices whose
      evenness is `even`. */
  function ParityXor(s: string, even: bool): nat
    decreases |s|
  {
    if |s| == 0 then 0
    else
      var i := |s| - 1;
      Xor(ParityXor(s[..i], even), if EvenIndex(i) == even then Ord(s[i]) else 0)
  }

  /** The unmasked hash of a base callsign: the seed, with the even-index
      characters folded into the high byte and the odd-index ones into the
      low byte. Each character contributes according to the parity of its
      index alone. */
  function HashOf(base: string): nat {
    Xor(Xor(Seed, Shl(ParityXor(base, true), 8)), ParityXor(base, false))
  }

  /** The 15-bit passcode of a base callsign. */
  function PasscodeOf(base: string): (r: nat)
    ensures r <= 0x7FFF
    ensures r == HashOf(base) % 0x8000
  {
    BitAndBound(HashOf(base), Mask15);
    Mask15IsMod(HashOf(base));
    BitAnd(HashOf(base), Mask15)
  }

  /** The empty base hashes to the seed, 29666. The base is a parameter
      fixed by `requires`, not a literal in the contract: on a literal the
      verifier unfolds the recursive string and bit functions step by step, at
      far greater cost. */
  lemma EmptyBaseIsSeed(base: string)
    requires base == []
    ensures HashOf(base) == Seed
    ensures PasscodeOf(base) == 29666
  {
    assert ParityXor(base, true) == 0 && ParityXor(base, false) == 0;
    ShlZero(8);
    XorZero(Seed);
    SeedBelowMask(HashOf(base));
  }

  /** The seed is below the 15-bit mask. `h` stands for the seed so that
      the constant is not unfolded through the bit functions. */
  lemma SeedBelowMask(h: nat)
    requires h == Seed
    ensures h % 0x8000 == 29666
  {
  }

  lemma ParityXorSnoc(s: string, i: nat, even: bool)
    requires i < |s|
    ensures ParityXor(s[..i + 1], even)
         == Xor(ParityXor(s[..i], even), if EvenIndex(i) == even then Ord(s[i]) else 0)
  {
    assert s[..i + 1][..i] == s[..i];
  }

  /** The hash of a prefix one character longer is one more step of the
      left-to-right loop of `aprs_passcode`. */
  lemma HashOfSnoc(s: string, i: nat)
    requires i < |s|
    ensures HashOf(s[..i + 1]) == Xor(HashOf(s[..i]), Step(s[i], i))
  {
    ParityXorSnoc(s, i, true);
    ParityXorSnoc(s, i, false);
    var e := ParityXor(s[..i], true);
    var o := ParityXor(s[..i], false);
    var c := Ord(s[i]);
    if EvenIndex(i) {
      assert ParityXor(s[..i + 1], false) == o by { XorZero(o); }
      XorShl(e, c, 8);
      XorAssoc(Seed, Shl(e, 8), Shl(c, 8));
      XorSwapLast(Xor(Seed, Shl(e, 8)), Shl(c, 8), o);
    } else {
      assert ParityXor(s[..i + 1], true) == e by { XorZero(e); }
      XorAssoc(Xor(Seed, Shl(e, 8)), o, c);
    }
  }

  /** How replacing the character at index `k` by `c` changes the fold of
      the characters of parity `even`. */
  function Delta(s: string, k: nat, c: char, even: bool): nat
    requires k < |s|
  {
    if EvenIndex(k) == even then Xor(Ord(s[k]), Ord(c)) else 0
  }

  /** Replacing one character changes the fold of its parity class by the
      XOR of the old and the new code point, and the other class not at
      all. */
  lemma {:induction false} ParityXorUpdate(s: string, k: nat, c: char, even: bool)
    requires k < |s|
    ensures ParityXor(s[k := c], even) == Xor(ParityXor(s, even), Delta(s, k, c, even))
    decreases |s|
  {
    var n := |s| - 1;
    var t := s[k := c];
    var front := ParityXor(s[..n], even);
    var last := if EvenIndex(n) == even then Ord(s[n]) else 0;
    var d := Delta(s, k, c, even);
    if k < n {
      assert t[..n] == s[..n][k := c];
      assert Delta(s[..n], k, c, even) == d;
      ParityXorUpdate(s[..n], k, c, even);
      XorSwapLast(front, d, last);
    } else {
      assert t[..n] == s[..n];
      if EvenIndex(n) == even {
        XorAssoc(front, Ord(s[n]), Xor(Ord(s[n]), Ord(c)));
        XorAssoc(Ord(s[n]), Ord(s[n]), Ord(c));
        XorSelf(Ord(s[n]));
        XorZero(Ord(c));
      } else {
        XorZero(front);
      }
    }
  }

  /** Exchanging two characters whose indices have the same parity leaves
      the hash unchanged. */
  lemma SameParitySwap(s: string, i: nat, j: nat)
    requires i < |s| && j < |s| && i % 2 == j % 2
    ensures HashOf(s[i := s[j]][j := s[i]]) == HashOf(s)
  {
    if i != j {
      var t := s[i := s[j]];
      assert t[j] == s[j];
      forall even: bool
        ensures ParityXor(t[j := s[i]], even) == ParityXor(s, even)
      {
        ParityXorUpdate(s, i, s[j], even);
        ParityXorUpdate(t, j, s[i], even);
        var d := Delta(s, i, s[j], even);
        if EvenIndex(i) == even {
          XorComm(Ord(s[j]), Ord(s[i]));
        }
        assert Delta(t, j, s[i], even) == d;
        XorTwice(ParityXor(s, even), d);
      }
      assert ParityXor(t[j := s[i]], true) == ParityXor(s, true);
      assert ParityXor(t[j := s[i]], false) == ParityXor(s, false);
    } else {
      assert s[i := s[j]][j := s[i]] == s;
    }
  }
}

=== FILE: pyint.dfy ===
/** Python's bitwise operators on non-negative integers (`^`, `&`, `<<`),
    defined digit by digit in base 2, with the algebra the passcode proofs
    need. Python integers have no width, so neither do these. */
module PyInt {

  /** `a ^ b`. */
  function Xor(a: nat, b: nat): nat
    decreases a + b
  {
    if a == 0 then b
    else if b == 0 then a
    else 2 * Xor(a / 2, b / 2) + (if a % 2 == b % 2 then 0 else 1)
  }

  /** `a & b`. */
  function BitAnd(a: nat, b: nat): nat
    decreases a + b
  {
    if a == 0 || b == 0 then 0 else 2 * BitAnd(a / 2, b / 2) + (a % 2) * (b % 2)
  }

  /** `a << n`. */
  function Shl(a: nat, n: nat): nat {
    if n == 0 then a else 2 * Shl(a, n - 1)
  }

  lemma {:induction false} ShlZero(n: nat)
    ensures Shl(0, n) == 0
  {
    if n > 0 {
      ShlZero(n - 1);
    }
  }

  function Pow2(k: nat): (p: nat)
    ensures p >= 1
  {
    if k == 0 then 1 else 2 * Pow2(k - 1)
  }

  /** The lowest bit of `a ^ b` is the sum of the lowest bits mod 2; the
      remaining bits are the XOR of the remaining bits. */
  lemma XorHalf(a: nat, b: nat)
    ensures Xor(a, b) / 2 == Xor(a / 2, b / 2)
    ensures Xor(a, b) % 2 == (if a % 2 == b % 2 then 0 else 1)
  {
  }

  /** Two naturals with the same lowest bit and the same remaining bits
      are equal. */
  lemma SameBits(x: nat, y: nat)
    requires x / 2 == y / 2 && x % 2 == y % 2
    ensures x == y
  {
  }

  lemma XorZero(a: nat)
    ensures Xor(a, 0) == a && Xor(0, a) == a
  {
  }

  lemma {:induction false} XorComm(a: nat, b: nat)
    ensures Xor(a, b) == Xor(b, a)
    decreases a + b
  {
    if a != 0 && b != 0 {
      XorComm(a / 2, b / 2);
    }
  }

  lemma {:induction false} XorSelf(a: nat)
    ensures Xor(a, a) == 0
    decreases a
  {
    if a != 0 {
      XorSelf(a / 2);
    }
  }

  lemma {:induction false} XorAssoc(a: nat, b: nat, c: nat)
    ensures Xor(Xor(a, b), c) == Xor(a, Xor(b, c))
    decreases a + b + c
  {
    if a != 0 && b != 0 && c != 0 {
      XorHalf(a, b);
      XorHalf(Xor(a, b), c);
      XorHalf(b, c);
      XorHalf(a, Xor(b, c));
      XorAssoc(a / 2, b / 2, c / 2);
      SameBits(Xor(Xor(a, b), c), Xor(a, Xor(b, c)));
    }
  }

  /** Exchanging the two operands folded onto `a`. */
  lemma XorSwapLast(a: nat, b: nat, c: nat)
    ensures Xor(Xor(a, b), c) == Xor(Xor(a, c), b)
  {
    XorAssoc(a, b, c);
    XorComm(b, c);
    XorAssoc(a, c, b);
  }

  /** XORing the same value twice undoes it. */
  lemma XorTwice(a: nat, b: nat)
    ensures Xor(Xor(a, b), b) == a
  {
    XorAssoc(a, b, b);
    XorSelf(b);
    XorZero(a);
  }

  lemma XorDouble(a: nat, b: nat)
    ensures Xor(2 * a, 2 * b) == 2 * Xor(a, b)
  {
    XorHalf(2 * a, 2 * b);
    SameBits(Xor(2 * a, 2 * b), 2 * Xor(a, b));
  }

  /** Shifting left distributes over XOR. */
  lemma {:induction false} XorShl(a: nat, b: nat, n: nat)
    ensures Xor(Shl(a, n), Shl(b, n)) == Shl(Xor(a, b), n)
  {
    if n > 0 {
      XorShl(a, b, n - 1);
      XorDouble(Shl(a, n - 1), Shl(b, n - 1));
    }
  }

  /** `a & b` never exceeds `b`. */
  lemma {:induction false} BitAndBound(a: nat, b: nat)
    ensures BitAnd(a, b) <= b
    decreases a + b
  {
    if a != 0 && b != 0 {
      BitAndBound(a / 2, b / 2);
    }
  }

  /** `a & (2**k - 1)` keeps the low `k` bits of `a`. */
  lemma {:induction false} BitAndLowMask(a: nat, k: nat)
    ensures BitAnd(a, Pow2(k) - 1) == a % Pow2(k)
    decreases k
  {
    if k == 0 {
      assert BitAnd(a, 0) == 0;
    } else {
      BitAndLowMask(a / 2, k - 1);
      LowMaskStep(a, k);
    }
  }

  /** One step of `BitAndLowMask`: from the upper bits of `a` to all of
      them. */
  lemma LowMaskStep(a: nat, k: nat)
    requires k > 0
    requires BitAnd(a / 2, Pow2(k - 1) - 1) == (a / 2) % Pow2(k - 1)
    ensures BitAnd(a, Pow2(k) - 1) == a % Pow2(k)
  {
    var p := Pow2(k - 1);
    assert Pow2(k) == 2 * p;
    MaskHalves(k);
    BitAndStep(a, 2 * p - 1);
    LowBitsSplit(a, p);
  }

  /** `2**k - 1` is an odd number whose upper bits are `2**(k-1) - 1`. */
  lemma MaskHalves(k: nat)
    requires k > 0
    ensures (Pow2(k) - 1) / 2 == Pow2(k - 1) - 1 && (Pow2(k) - 1) % 2 == 1
  {
  }

  /** `a & m` for an odd `m`: the low bit of `a`, and the AND of the rest. */
  lemma BitAndStep(a: nat, m: nat)
    requires m % 2 == 1
    ensures BitAnd(a, m) == 2 * BitAnd(a / 2, m / 2) + a % 2
  {
  }

  lemma LowBitsSplit(a: nat, p: nat)
    requires p >= 1
    ensures 2 * ((a / 2) % p) + a % 2 == a % (2 * p)
  {
    var q := a / 2;
    var t := q / p;
    var u := q % p;
    assert a == 2 * p * t + (2 * u + a % 2);
    assert 0 <= 2 * u + a % 2 < 2 * p;
    ModOfDecomposition(a, 2 * p, t, 2 * u + a % 2);
  }

  lemma ModOfDecomposition(a: nat, m: nat, t: nat, r: nat)
    requires m >= 1 && r < m && a == m * t + r
    ensures a % m == r
  {
    var q := a / m;
    var r' := a % m;
    assert a == m * q + r';
    if q > t {
      MulMonotone(m, q - t);
    } else if q < t {
      MulMonotone(m, t - q);
    }
  }

  lemma MulMonotone(m: nat, d: nat)
    requires d >= 1
    ensures m * d >= m
  {
  }

  /** `a & 0x7FFF` is `a` modulo 2**15. */
  lemma Mask15IsMod(a: nat)
    ensures BitAnd(a, 0x7FFF) == a % 0x8000
  {
    assert Pow2(15) == 0x8000 by {
      assert Pow2(4) == 16;
      assert Pow2(8) == 256;
      assert Pow2(12) == 4096;
    }
    BitAndLowMask(a, 15);
  }

  /** `i & 1` is the parity of `i`. */
  lemma LowBitIsParity(i: nat)
    ensures BitAnd(i, 1) == i % 2
  {
  }
}

=== FILE: validcall.dfy ===
/** Files/pyscripts/validcall.py: whether a text is a well-formed US amateur
    callsign, after trimming, upper-casing and removing one portable
    suffix, and the script's exit codes. */
module ValidCall {
  import opened Ascii

  /** The suffixes the script removes (after upper-casing). */
  const Suffixes: seq<string> := ["/P", "/M", "/MM", "/AM"]

  predicate HasSuffix(s: string) {
    EndsWith(s, "/MM") || EndsWith(s, "/AM") || EndsWith(s, "/P") || EndsWith(s, "/M")
  }

  /** `re.sub(r"/(P|M|MM|AM)$", "", s)` on stripped text, which cannot end
      in a newline. No two alternatives end one string, so at most one
      suffix goes. */
  function StripSuffix(s: string): (r: string)
    ensures |r| <= |s| && r == s[..|r|]
    ensures r == s <==> !HasSuffix(s)
    ensures r != s ==> s[|r|..] in Suffixes
  {
    if EndsWith(s, "/MM") || EndsWith(s, "/AM") then s[..|s| - 3]
    else if EndsWith(s, "/P") || EndsWith(s, "/M") then s[..|s| - 2]
    else s
  }

  /** The text `is_valid_us_callsign` matches against its pattern. */
  function Normalize(callsign: string): string {
    StripSuffix(ToUpper(Strip(callsign)))
  }

  predicate IsKnw(c: char) {
    c == 'K' || c == 'N' || c == 'W'
  }

  /** The prefix alternatives `[KNW][A-Z]?` and `A[A-L]`. */
  predicate IsCallPrefix(p: string) {
    (|p| == 1 && IsKnw(p[0]))
    || (|p| == 2 && ((IsKnw(p[0]) && IsUpper(p[1])) || (p[0] == 'A' && 'A' <= p[1] <= 'L')))
  }

  /** `[A-Z]{1,3}` matching all of `q`. */
  predicate IsCallSuffix(q: string) {
    1 <= |q| <= 3 && forall j :: 0 <= j < |q| ==> IsUpper(q[j])
  }

  /** `s` is a prefix of length `n`, a digit, and a suffix. */
  predicate SplitsAt(s: string, n: nat) {
    n < |s| && IsCallPrefix(s[..n]) && IsDigit(s[n]) && IsCallSuffix(s[n + 1..])
  }

  /** The whole of `s` matches the callsign pattern. A prefix has one or
      two letters, so the digit sits at index 1 or 2. */
  predicate MatchesCall(s: string) {
    SplitsAt(s, 1) || SplitsAt(s, 2)
  }

  /** What `pattern.match` accepts: Python's `$` also matches just before
      a final newline. */
  predicate MatchesAsWritten(s: string) {
    MatchesCall(s) || (|s| > 0 && s[|s| - 1] == '\n' && MatchesCall(s[..|s| - 1]))
  }

  /** `is_valid_us_callsign` as written. */
  predicate IsValidUsCallsignAsWritten(callsign: string) {
    MatchesAsWritten(Normalize(callsign))
  }

  /** `is_valid_us_callsign` with `$` read as the end of the text. */
  predicate IsValidUsCallsign(callsign: string) {
    MatchesCall(Normalize(callsign))
  }

  /** `[A-Z]{1,3}$` from index `n + 1`, after the digit at `n`: the letters
      are taken greedily, up to three, and the text must end there. */
  method MatchTail(s: string, n: nat) returns (ok: bool)
    ensures ok <==> n < |s| && IsDigit(s[n]) && IsCallSuffix(s[n + 1..])
  {
    if n >= |s| || !IsDigit(s[n]) {
      return false;
    }
    var k := n + 1;
    while k < |s| && k - n - 1 < 3 && IsUpper(s[k])
      invariant n + 1 <= k <= |s| && k - n - 1 <= 3
      invariant forall j :: n + 1 <= j < k ==> IsUpper(s[j])
    {
      k := k + 1;
    }
    ok := k == |s| && k - n - 1 >= 1;
    assert ok ==> s[n + 1..] == s[n + 1..k];
    if !ok && 1 <= |s| - n - 1 <= 3 && k < |s| {
      assert !IsUpper(s[n + 1..][k - n - 1]);
    }
  }

  /** The pattern with `$` at the very end of the text, as the
      regular-expression engine tries it: the first alternative with its
      optional letter taken greedily, then with it left out, then the second
      alternative. */
  method MatchToEnd(s: string) returns (ok: bool)
    ensures ok <==> MatchesCall(s)
  {
    ok := false;
    if |s| > 0 && IsKnw(s[0]) {
      if |s| > 1 && IsUpper(s[1]) {
        ok := MatchTail(s, 2);
        assert s[..2] == [s[0], s[1]];
      }
      if !ok {
        ok := MatchTail(s, 1);
        assert s[..1] == [s[0]];
      }
    }
    if !ok && |s| > 1 && s[0] == 'A' && 'A' <= s[1] <= 'L' {
      ok := MatchTail(s, 2);
      assert s[..2] == [s[0], s[1]];
    }
    if !ok && |s| > 1 {
      assert s[..1] == [s[0]] && s[..2] == [s[0], s[1]];
    }
  }

  /** `pattern.match`: Python's `$` matches at the end of the text or just
      before a final newline, so the match is tried at the end first and
      then without the final newline. */
  method MatchPattern(s: string) returns (ok: bool)
    ensures ok <==> MatchesAsWritten(s)
  {
    ok := MatchToEnd(s);
    if !ok && |s| > 0 && s[|s| - 1] == '\n' {
      ok := MatchToEnd(s[..|s| - 1]);
    }
  }

  /** `main`, given `sys.argv` (program name first): 2 for a wrong
      argument count, 0 for a callsign `is_valid_us_callsign` accepts as
      written, 1 otherwise. */
  method RunScript(argv: seq<string>) returns (code: int)
    ensures code == 2 <==> |argv| != 2
    ensures code == 0 <==> |argv| == 2 && IsValidUsCallsignAsWritten(argv[1])
    ensures code == 1 <==> |argv| == 2 && !IsValidUsCallsignAsWritten(argv[1])
  {
    if |argv| != 2 {
      return 2;
    }
    var ok := MatchPattern(Normalize(argv[1]));
    code := if ok then 0 else 1;
  }

  /** The shape of every matching text: three to six characters, exactly
      one digit, at index 1 or 2, and upper-case letters everywhere else;
      the first letter is K, N, W or A, and an A is followed by A..L and
      then the digit. */
  lemma AcceptedShape(s: string)
    requires MatchesCall(s)
    ensures 3 <= |s| <= 6
    ensures var n := if IsDigit(s[1]) then 1 else 2;
      IsDigit(s[n]) && forall k :: 0 <= k < |s| && k != n ==> IsUpper(s[k])
    ensures IsKnw(s[0]) || s[0] == 'A'
    ensures s[0] == 'A' ==> 'A' <= s[1] <= 'L' && IsDigit(s[2])
  {
    var n := if SplitsAt(s, 1) then 1 else 2;
    assert SplitsAt(s, n);
    assert s[..n][0] == s[0];
    if n == 2 {
      assert s[..n][1] == s[1];
    }
    forall k | n < k < |s|
      ensures IsUpper(s[k])
    {
      assert s[k] == s[n + 1..][k - n - 1];
    }
  }

  /** A valid callsign, normalised, has between three and six characters,
      all of them upper-case letters or digits (so no newline). */
  lemma ValidLength(callsign: string)
    requires IsValidUsCallsign(callsign)
    ensures 3 <= |Normalize(callsign)| <= 6
    ensures Plain(Normalize(callsign))
  {
    AcceptedShape(Normalize(callsign));
    MatchChars(Normalize(callsign));
  }

  /** Surrounding whitespace and letter case do not affect validity. */
  lemma WhitespaceAndCaseIgnored(w1: string, s: string, w2: string, t: string)
    requires AllSpace(w1) && AllSpace(w2)
    requires ToUpper(s) == ToUpper(t)
    ensures Normalize(w1 + s + w2) == Normalize(t)
    ensures IsValidUsCallsign(w1 + s + w2) == IsValidUsCallsign(t)
  {
    StripIgnoresPadding(w1, s, w2);
    UpperCommutesWithStrip(s);
    UpperCommutesWithStrip(t);
  }

  /** A matching text is already in normal form. */
  lemma MatchIsNormal(b: string)
    requires MatchesCall(b)
    ensures Strip(b) == b && ToUpper(b) == b && !HasSuffix(b)
    ensures |b| > 0 && !IsSpace(b[0])
  {
    MatchChars(b);
    AcceptedShape(b);
    PlainIsNormal(b);
  }

  /** Removing a suffix from `b` followed by a suffix leaves `b`: a
      shorter suffix never ends a longer one. */
  lemma StripSuffixOf(b: string, v: string)
    requires v in Suffixes
    ensures StripSuffix(b + v) == b
  {
    var u := b + v;
    assert u[..|b|] == b;
    assert u[|u| - |v|..] == v;
    if v == "/P" || v == "/M" {
      assert u[|u| - 2] == '/';
      NoLongSuffix(u);
    }
  }

  /** A text whose last but one character is `/` ends in neither `/MM`
      nor `/AM`. */
  lemma NoLongSuffix(u: string)
    requires |u| >= 2 && u[|u| - 2] == '/'
    ensures !EndsWith(u, "/MM") && !EndsWith(u, "/AM")
  {
    if |u| >= 3 {
      assert u[|u| - 3..][1] == '/';
    }
  }

  /** Appending one suffix, in either case, to a text that matches the
      pattern (a callsign already in normal form) keeps it valid. */
  lemma SuffixKeepsValid(b: string, sfx: string)
    requires MatchesCall(b)
    requires ToUpper(sfx) in Suffixes
    ensures Normalize(b + sfx) == b
    ensures IsValidUsCallsign(b + sfx)
  {
    MatchIsNormal(b);
    AcceptedShape(b);
    NormalizeWithSuffix(b, sfx);
  }

  /** A matching text holds only upper-case letters and digits, so no
      `/` and no newline. */
  lemma MatchChars(s: string)
    ensures MatchesCall(s) ==> Plain(s)
  {
    if MatchesCall(s) {
      AcceptedShape(s);
    }
  }

  /** A text of upper-case letters and digits is its own normal form. */
  lemma PlainIsNormal(s: string)
    requires Plain(s)
    ensures Strip(s) == s && ToUpper(s) == s && !HasSuffix(s)
    ensures Normalize(s) == s
  {
    if |s| > 0 {
      assert !IsSpace(s[0]) && !IsSpace(s[|s| - 1]);
    }
    StripOfTrimmed(s);
    PlainIsUpper(s);
    PlainHasNoSuffix(s);
  }

  /** Only upper-case letters and digits. */
  predicate Plain(s: string) {
    forall k :: 0 <= k < |s| ==> IsUpper(s[k]) || IsDigit(s[k])
  }

  lemma PlainIsUpper(s: string)
    requires Plain(s)
    ensures ToUpper(s) == s
  {
    assert forall k :: 0 <= k < |s| ==> ToUpper(s)[k] == s[k];
  }

  lemma PlainHasNoSuffix(s: string)
    requires Plain(s)
    ensures !HasSuffix(s)
  {
    if |s| >= 2 {
      assert s[|s| - 2..][0] == s[|s| - 2] != '/';
    }
    if |s| >= 3 {
      assert s[|s| - 3..][0] == s[|s| - 3] != '/';
    }
  }

  lemma UpperSuffix(v: string)
    requires v in Suffixes
    ensures ToUpper(v) == v
  {
    assert v == "/P" || v == "/M" || v == "/MM" || v == "/AM";
  }

  /** A suffix in any case starts with `/` and ends in a letter. */
  lemma SuffixEnds(sfx: string)
    requires ToUpper(sfx) in Suffixes
    ensures 2 <= |sfx| && !IsSpace(sfx[|sfx| - 1])
  {
    var v := ToUpper(sfx);
    assert v == "/P" || v == "/M" || v == "/MM" || v == "/AM";
    assert v[|v| - 1] == UpperChar(sfx[|sfx| - 1]);
  }

  /** Text already stripped and upper-case, followed by a suffix in any
      case, normalises to the text. */
  lemma NormalizeWithSuffix(p: string, sfx: string)
    requires |p| > 0 && !IsSpace(p[0]) && ToUpper(p) == p
    requires ToUpper(sfx) in Suffixes
    ensures Normalize(p + sfx) == p
  {
    SuffixEnds(sfx);
    var x := p + sfx;
    assert x[0] == p[0] && x[|x| - 1] == sfx[|sfx| - 1];
    StripOfTrimmed(x);
    UpperOfConcat(p, sfx);
    StripSuffixOf(p, ToUpper(sfx));
  }

  /** A text with a character that is neither a letter nor a digit does
      not match. */
  lemma ForeignCharRejected(s: string, k: nat)
    requires k < |s| && !IsUpper(s[k]) && !IsDigit(s[k])
    ensures !MatchesCall(s)
  {
    MatchChars(s);
  }

  /** Only one suffix is removed: a valid callsign followed by two
      suffixes is rejected (so `K1ABC/P/M` is). */
  lemma TwoSuffixesRejected(b: string, v1: string, v2: string)
    requires MatchesCall(b)
    requires v1 in Suffixes && v2 in Suffixes
    ensures Normalize(b + v1 + v2) == b + v1
    ensures !IsValidUsCallsign(b + v1 + v2)
  {
    MatchIsNormal(b);
    UpperSuffix(v1);
    AppendedRejected(b, v1, v2);
  }

  /** Normal text, then text starting with a character that is neither a
      letter nor a digit, then a suffix: only the suffix is removed, and
      what is left does not match. */
  lemma AppendedRejected(b: string, x: string, v: string)
    requires |b| > 0 && !IsSpace(b[0]) && ToUpper(b) == b
    requires |x| > 0 && ToUpper(x) == x && !IsUpper(x[0]) && !IsDigit(x[0])
    requires v in Suffixes
    ensures Normalize(b + x + v) == b + x
    ensures !MatchesCall(b + x)
  {
    var p := b + x;
    assert ToUpper(p) == p by {
      UpperOfConcat(b, x);
    }
    assert p[0] == b[0] && p[|b|] == x[0];
    UpperSuffix(v);
    NormalizeWithSuffix(p, v);
    ForeignCharRejected(p, |b|);
  }

  /** Every character from index `i` on is an upper-case letter. */
  predicate UpperFrom(s: string, i: nat) {
    forall k :: i <= k < |s| ==> IsUpper(s[k])
  }

  /** The callsign pattern read character by character: a one-letter
      prefix K, N or W, a digit and one to three letters; or a two-letter
      prefix (K, N or W and any letter, or A and A..L), a digit and one to
      three letters. */
  predicate CallShape(s: string) {
    (3 <= |s| <= 5 && IsKnw(s[0]) && IsDigit(s[1]) && UpperFrom(s, 2))
    || (4 <= |s| <= 6 && ((IsKnw(s[0]) && IsUpper(s[1])) || (s[0] == 'A' && 'A' <= s[1] <= 'L'))
        && IsDigit(s[2]) && UpperFrom(s, 3))
  }

  lemma SplitsAtIffShape(s: string, n: nat)
    requires n == 1 || n == 2
    ensures SplitsAt(s, n) <==> n + 2 <= |s| <= n + 4 && IsCallPrefix(s[..n]) && IsDigit(s[n]) && UpperFrom(s, n + 1)
  {
    if n + 1 <= |s| {
      var q := s[n + 1..];
      assert forall j :: 0 <= j < |q| ==> q[j] == s[n + 1 + j];
      assert forall k :: n + 1 <= k < |s| ==> s[k] == q[k - n - 1];
    }
  }

  /** The regular expression and the character-by-character reading
      accept the same texts. */
  lemma MatchesIffShape(s: string)
    ensures MatchesCall(s) <==> CallShape(s)
  {
    SplitsAtIffShape(s, 1);
    SplitsAtIffShape(s, 2);
    if |s| >= 1 {
      assert s[..1] == [s[0]];
    }
    if |s| >= 2 {
      assert s[..2] == [s[0], s[1]];
    }
  }

  /** For a text of upper-case letters and digits, validity is the
      character-by-character reading. */
  lemma PlainValidIffShape(s: string)
    requires Plain(s)
    ensures IsValidUsCallsign(s) <==> CallShape(s)
  {
    PlainIsNormal(s);
    MatchesIffShape(s);
  }

  /** Prefix and suffix rules on sample texts: a one-letter prefix other
      than K, N and W, an A followed by a letter past L, no letters after
      the digit, or four of them, are all rejected. Sample texts of this
      kind are their own normal form, so by `PlainValidIffShape` these are
      also the script's verdicts. */
  lemma RejectedSamples()
    ensures !MatchesCall("A1BC") && !MatchesCall("B1ABC") && !MatchesCall("AM1ABC")
    ensures !MatchesCall("K1") && !MatchesCall("K1ABCD")
  {
    MatchesIffShape("A1BC");
    MatchesIffShape("B1ABC");
    MatchesIffShape("AM1ABC");
    MatchesIffShape("K1");
    MatchesIffShape("K1ABCD");
  }

  /** Sample texts of each prefix form match. */
  lemma AcceptedSamples()
    ensures MatchesCall("K1ABC") && MatchesCall("N0Q")
    ensures MatchesCall("WA2XYZ") && MatchesCall("AL7X")
  {
    MatchesIffShape("K1ABC");
    MatchesIffShape("N0Q");
    MatchesIffShape("WA2XYZ");
    MatchesIffShape("AL7X");
  }

  /** `K1ABC/P/M` loses only its last suffix and is rejected. The text is a
      parameter fixed by `requires`, not a literal in the contract: on a literal
      the verifier unfolds the recursive string functions step by step,
      at far greater cost. */
  lemma TwoSuffixesExample(c: string)
    requires c == "K1ABC/P/M"
    ensures Normalize(c) == "K1ABC/P"
    ensures !IsValidUsCallsign(c)
  {
    var b, v1, v2 := "K1ABC", "/P", "/M";
    assert c == b + v1 + v2;
    MatchesIffShape(b);
    TwoSuffixesRejected(b, v1, v2);
  }

  /** As written, a text that matches the pattern (a callsign already in
      normal form), a newline and a suffix is accepted,
      because `$` matches before the newline the suffix removal exposes;
      the normalised text then has a character that is neither a letter
      nor a digit, and can be seven characters long. */
  lemma NewlineBeforeSuffix(b: string, v: string)
    requires MatchesCall(b)
    requires v in Suffixes
    ensures Normalize(b + "\n" + v) == b + "\n"
    ensures IsValidUsCallsignAsWritten(b + "\n" + v)
    ensures !IsValidUsCallsign(b + "\n" + v)
  {
    MatchIsNormal(b);
    assert ToUpper("\n") == "\n";
    AppendedRejected(b, "\n", v);
    assert (b + "\n")[..|b|] == b;
  }

  /** The suffix lemmas above need a text that matches the pattern, not
      merely a valid callsign: a trailing space is stripped and the result
      is valid, but once a suffix follows, the space is inside the text and
      survives normalisation, so the callsign is rejected, with or without a
      newline after the space. */
  lemma InnerSpaceRejected(b: string, c: char, v: string)
    requires MatchesCall(b)
    requires IsSpace(c)
    requires v in Suffixes
    ensures IsValidUsCallsign(b + [c])
    ensures !IsValidUsCallsign(b + [c] + v)
    ensures !IsValidUsCallsignAsWritten(b + [c, '\n'] + v)
  {
    TrailingSpaceStripped(b, c);
    MatchIsNormal(b);
    assert ToUpper([c]) == [c];
    AppendedRejected(b, [c], v);
    SpaceNewlineLeft(b, c, v);
  }

  /** A whitespace character after a matching text is stripped. */
  lemma TrailingSpaceStripped(b: string, c: char)
    requires MatchesCall(b)
    requires IsSpace(c)
    ensures IsValidUsCallsign(b + [c])
  {
    MatchIsNormal(b);
    assert Normalize(b) == b;
    assert b + [c] == [] + b + [c];
    assert AllSpace([c]);
    WhitespaceAndCaseIgnored([], b, [c], b);
  }

  /** A whitespace character and a newline between a stripped, upper-case
      text and a suffix stay in place, so even Python's `$` finds no
      match. */
  lemma SpaceNewlineLeft(b: string, c: char, v: string)
    requires |b| > 0 && !IsSpace(b[0]) && ToUpper(b) == b
    requires IsSpace(c)
    requires v in Suffixes
    ensures !IsValidUsCallsignAsWritten(b + [c, '\n'] + v)
  {
    var x := [c, '\n'];
    var n := b + x;
    assert Normalize(b + x + v) == n by {
      assert ToUpper(x) == x;
      AppendedRejected(b, x, v);
    }
    assert !MatchesCall(b + x) by {
      ForeignCharRejected(b + x, |b|);
    }
    assert !MatchesCall(b + [c]) by {
      ForeignCharRejected(b + [c], |b|);
    }
    assert n[..|n| - 1] == b + [c];
    RejectedAsWritten(b + x + v, n);
  }

  /** A normal form that matches neither as a whole nor without its last
      character is rejected by `$` as Python reads it. */
  lemma RejectedAsWritten(callsign: string, n: string)
    requires Normalize(callsign) == n
    requires |n| > 0 && !MatchesCall(n) && !MatchesCall(n[..|n| - 1])
    ensures !IsValidUsCallsignAsWritten(callsign)
  {
  }

  /** `KA1ABC\n/P` is accepted as written, with a seven-character normal
      form, and rejected by the corrected reading. The text is a parameter fixed
      by `requires`, not a literal in the contract: on a literal the verifier
      unfolds the recursive string functions step by step, at far
      greater cost. */
  lemma NewlineExample(c: string)
    requires c == "KA1ABC\n/P"
    ensures IsValidUsCallsignAsWritten(c)
    ensures !IsValidUsCallsign(c)
    ensures |Normalize(c)| == 7
  {
    var b, v := "KA1ABC", "/P";
    assert c == b + "\n" + v;
    assert SplitsAt(b, 2);
    NewlineBeforeSuffix(b, v);
  }

  /** Normalising never introduces a newline. */
  lemma NoNewlineAfterNormalize(callsign: string)
    requires '\n' !in callsign
    ensures '\n' !in Normalize(callsign)
  {
    var t := Strip(callsign);
    assert '\n' !in t by {
      var a := LeadingSpaces(callsign);
      assert forall k :: 0 <= k < |t| ==> t[k] == callsign[a + k];
    }
    var u := ToUpper(t);
    assert '\n' !in u by {
      assert forall k :: 0 <= k < |u| ==> u[k] == UpperChar(t[k]) != '\n';
    }
    var r := StripSuffix(u);
    assert forall k :: 0 <= k < |r| ==> r[k] == u[k];
  }

  /** Without a newline in the input, the script as written and the
      corrected reading agree. */
  lemma AgreesWithoutNewline(callsign: string)
    requires '\n' !in callsign
    ensures IsValidUsCallsignAsWritten(callsign) == IsValidUsCallsign(callsign)
  {
    NoNewlineAfterNormalize(callsign);
    var s := Normalize(callsign);
    if |s| > 0 {
      assert s[|s| - 1] != '\n';
    }
  }
}

=== FILE: validcoords.dfy ===
/** Files/pyscripts/validcoords.py: the latitude/longitude validator, which
    runs four checks in order and raises on the first that fails. A raised
    `ValueError` is modelled as an error value. */
module ValidCoords {
  import HamGrid

  /** What a Python argument can be: an `int` or a finite `float`, one of
      the float specials, or something that is not a number at all. */
  datatype Value = Num(x: real) | PosInf | NegInf | NaN | NotNumber

  /** The four `ValueError`s, in the order the checks run. */
  datatype CoordError =
    | LatitudeNotNumber
    | LongitudeNotNumber
    | LatitudeOutOfRange
    | LongitudeOutOfRange

  datatype Result = Ok(value: bool) | Err(error: CoordError)

  /** The text each error is raised with. */
  function Message(e: CoordError): string {
    match e
    case LatitudeNotNumber => "Latitude must be a number"
    case LongitudeNotNumber => "Longitude must be a number"
    case LatitudeOutOfRange => "Latitude must be between -90 and 90 degrees"
    case LongitudeOutOfRange => "Longitude must be between -180 and 180 degrees"
  }

  /** `isinstance(v, (int, float))`. */
  predicate IsNumber(v: Value) {
    !v.NotNumber?
  }

  /** `v < bound` for a number; every comparison with NaN is false. */
  predicate Below(v: Value, bound: real)
    requires IsNumber(v)
  {
    match v
    case Num(x) => x < bound
    case NegInf => true
    case _ => false
  }

  /** `v > bound` for a number; every comparison with NaN is false. */
  predicate Above(v: Value, bound: real)
    requires IsNumber(v)
  {
    match v
    case Num(x) => x > bound
    case PosInf => true
    case _ => false
  }

  /** The intended acceptance: a finite number within `lo..hi`, bounds
      included. */
  predicate InRange(v: Value, lo: real, hi: real) {
    v.Num? && lo <= v.x <= hi
  }

  /** `validate(latitude, longitude)` as written: a NaN fails neither range
      test and so is accepted. */
  function ValidateAsWritten(lat: Value, lon: Value): (r: Result)
    ensures r.Ok? ==> r.value
    ensures r.Ok? <==> IsNumber(lat) && IsNumber(lon)
                       && (InRange(lat, -90.0, 90.0) || lat.NaN?)
                       && (InRange(lon, -180.0, 180.0) || lon.NaN?)
  {
    if !IsNumber(lat) then Err(LatitudeNotNumber)
    else if !IsNumber(lon) then Err(LongitudeNotNumber)
    else if Below(lat, -90.0) || Above(lat, 90.0) then Err(LatitudeOutOfRange)
    else if Below(lon, -180.0) || Above(lon, 180.0) then Err(LongitudeOutOfRange)
    else Ok(true)
  }

  /** `validate` with each range test read as "not within the bounds", so
      that a NaN is rejected like any other value outside them. */
  function Validate(lat: Value, lon: Value): (r: Result)
    ensures r.Ok? ==> r.value
    ensures r.Ok? <==> InRange(lat, -90.0, 90.0) && InRange(lon, -180.0, 180.0)
  {
    if !IsNumber(lat) then Err(LatitudeNotNumber)
    else if !IsNumber(lon) then Err(LongitudeNotNumber)
    else if !InRange(lat, -90.0, 90.0) then Err(LatitudeOutOfRange)
    else if !InRange(lon, -180.0, 180.0) then Err(LongitudeOutOfRange)
    else Ok(true)
  }

  /** The error reported is that of the first failing check, in the order
      latitude type, longitude type, latitude range, longitude range. */
  lemma CheckOrder(lat: Value, lon: Value)
    ensures Validate(lat, lon) == Err(LatitudeNotNumber) <==> !IsNumber(lat)
    ensures Validate(lat, lon) == Err(LongitudeNotNumber) <==> IsNumber(lat) && !IsNumber(lon)
    ensures Validate(lat, lon) == Err(LatitudeOutOfRange)
        <==> IsNumber(lat) && IsNumber(lon) && !InRange(lat, -90.0, 90.0)
    ensures Validate(lat, lon) == Err(LongitudeOutOfRange)
        <==> IsNumber(lon) && InRange(lat, -90.0, 90.0) && !InRange(lon, -180.0, 180.0)
  {
  }

  /** The script's own order: the same four checks, but a NaN fails neither
      range check, so a range error names a number outside its bounds that
      is not NaN, and a NaN latitude lets the longitude's check decide. */
  lemma CheckOrderAsWritten(lat: Value, lon: Value)
    ensures ValidateAsWritten(lat, lon) == Err(LatitudeNotNumber) <==> !IsNumber(lat)
    ensures ValidateAsWritten(lat, lon) == Err(LongitudeNotNumber)
        <==> IsNumber(lat) && !IsNumber(lon)
    ensures ValidateAsWritten(lat, lon) == Err(LatitudeOutOfRange)
        <==> IsNumber(lat) && IsNumber(lon) && !InRange(lat, -90.0, 90.0) && !lat.NaN?
    ensures ValidateAsWritten(lat, lon) == Err(LongitudeOutOfRange)
        <==> IsNumber(lon) && (InRange(lat, -90.0, 90.0) || lat.NaN?)
             && !InRange(lon, -180.0, 180.0) && !lon.NaN?
  {
  }

  /** A non-numeric longitude is reported before an out-of-range latitude,
      and an out-of-range latitude before an out-of-range longitude. */
  lemma OrderExamples()
    ensures Validate(Num(100.0), NotNumber) == Err(LongitudeNotNumber)
    ensures Validate(Num(100.0), Num(200.0)) == Err(LatitudeOutOfRange)
    ensures Message(Validate(Num(100.0), Num(200.0)).error)
         == "Latitude must be between -90 and 90 degrees"
  {
  }

  /** The bounds themselves are accepted; anything past them is not. */
  lemma BoundsInclusive()
    ensures Validate(Num(90.0), Num(180.0)) == Ok(true)
    ensures Validate(Num(-90.0), Num(-180.0)) == Ok(true)
    ensures Validate(PosInf, Num(0.0)) == Err(LatitudeOutOfRange)
    ensures Validate(Num(0.0), NegInf) == Err(LongitudeOutOfRange)
  {
  }

  /** As written, a NaN latitude passes validation; the corrected reading
      rejects it. With a NaN latitude the script goes on to the longitude's
      check, while the corrected reading stops at the latitude. */
  lemma NaNAccepted()
    ensures ValidateAsWritten(NaN, Num(0.0)) == Ok(true)
    ensures ValidateAsWritten(Num(0.0), NaN) == Ok(true)
    ensures Validate(NaN, Num(0.0)) == Err(LatitudeOutOfRange)
    ensures Validate(Num(0.0), NaN) == Err(LongitudeOutOfRange)
    ensures ValidateAsWritten(NaN, Num(200.0)) == Err(LongitudeOutOfRange)
    ensures Validate(NaN, Num(200.0)) == Err(LatitudeOutOfRange)
  {
  }

  /** Without a NaN the two readings agree on every input. */
  lemma AgreesWithoutNaN(lat: Value, lon: Value)
    requires !lat.NaN? && !lon.NaN?
    ensures ValidateAsWritten(lat, lon) == Validate(lat, lon)
  {
  }

  /** Every accepted pair is in the encoder's domain, and with latitude
      below 90 and longitude below 180 its fields are A..R. */
  lemma AcceptedIsGridDomain(lat: Value, lon: Value)
    requires Validate(lat, lon) == Ok(true)
    ensures HamGrid.InDomain(lat.x, lon.x)
    ensures var g := HamGrid.GridConversion(lat.x, lon.x);
      (lon.x < 180.0 ==> 'A' <= g[0] <= 'R') && (lat.x < 90.0 ==> 'A' <= g[1] <= 'R')
  {
  }
}
